=== FILE: README.md ===
# GardenPi Plus: the misting controller and its scheduling page

This project models the core of GardenPi Plus, a MicroPython misting
controller. The device switches a relay according to a weekly schedule. It
honours a manual override and turns misting off when the forecast says rain.
It also serves a small web portal behind a session cookie.

The model covers two sides:

- **The device** (`logic/main.py`):
  - `run_schedule` decides the relay each pass.
  - `check_weather` and `log_weather` suppress misting when rain is forecast and keep a 21-entry log.
  - `update_misting_status` and `update_schedule` write the config.
  - `verify_credentials` migrates plaintext secrets and checks them; `verify_session` checks the session cookie.
  - `parse_headers`, `get_cookie` and `get_mime_type` are the request helpers.
  - The fallback at the end of the web server either redirects or serves a file under `/portal`.
- **The portal** (`portal/simplelogic.js`):
  - `minsToTime` shows a stored minute-of-day as a 12-hour time.
  - `populateTimeOptions` fills the time dropdowns.
  - `loadConfig` fills a day's slots from the stored schedule.
  - `gatherSchedule` turns the slots back into "H:MM" strings for the device.

The project has these modules:

- `Text`: Python's and JavaScript's `split`, `in`, `strip` and `lower`.
- `Numerals`: Python's `int()`, JavaScript's `parseInt`, `padStart` and number printing.
- `Schedule`: the schedule format and `update_schedule`'s conversion.
- `Weather`, `Auth`, `Http`: the device's helpers.
- `Controller`: the device as a whole.
- `Portal`: the scheduling page.
- `RoundTrip`: the properties that join the page and the device.

The device is modelled in two layers:

- A `State` value with one pure step function per operation. Its properties are proved as lemmas.
- A `Device` class with the same fields. Each method updates them in place and is proved to take exactly that step.

Loops in the source that build a result step by step are methods with loop invariants. Each is proved equal to a specification function: `ParseDayTimes`, `ParseHeaders`, `GatherSchedule`, `GatherDaySlots`, `PopulateTimeOptions`, `LoadDay` (its two loops are `FillTimes` and `ResetFrom`), the loop over the request's days in `Device.UpdateSchedule` (proved equal to the `ScheduleUpdated` step), and the maximum loop in `Device.CheckWeather`. `LoadDay` fills an `array` of slots in place, as `loadConfig` fills the page's slots. The one exception is the search loop of `get_cookie`. It only reads its input and returns at the first match, so it is the recursive function `Http.FirstCookie`.

These inputs come from outside the code and are parameters:

- the clock: the time `check_weather` reads (`checkNow`), the later time `run_schedule` reads (`now`), and the minute of the day and weekday taken from the local time;
- the forecast fetch result;
- the hash function;
- the generated session token;
- the result of the device-address allowlist (`auto_authenticate`).

Some behaviours of the code are easy to miss. The model follows the code in each:

- `update_schedule` has no range check. A stored "25:00" becomes minute 1500. `run_schedule` never matches that minute. The page shows it as 1:00 PM, and saving the page unchanged stores 780. See `LateTimeAccepted`, `LateTimeShown` and `LateTimeResent`.
- `loadConfig` assigns `minsToTime`'s text to a dropdown whose options are the quarter hours only. Any other minute leaves the dropdown empty, and `gatherSchedule` then throws. See `OffQuarterNotListed` and `OffQuarterSlotThrows`.
- A day's value in a schedule update need not be a list. Null, a number or a boolean makes the update fail. A string is walked character by character: "6:30" fails, because its ":" character alone does not convert, and "630" is stored as an empty list. See `ScalarDayRejected` and `TextDay`.
- The assets check is a text prefix test on the raw path. "/assets/../../logging/security.json" passes it unauthenticated. See `AssetsCheckIsTextual`.
- The trigger guard remembers only the minute of the day, not the day. A day scheduled at the same minute as the day before does not fire: with "mon" and "tue" both at 06:00, Tuesday's 06:00 pass leaves the relay off. See `NextDaySameMinuteSkipped`.
- The web server has two `while True` loops. The first never exits, so the second one (schedule, config and static routes) is never reached. The second loop also places `elif` branches after `cl.close()` (`logic/main.py:411-413`), which Python does not accept. Each route handler is modelled on its own, and the model makes no claim about which handler a request reaches.

## Model

| member | source | states |
|---|---|---|
| Text.FindFrom | logic/main.py:52-53 | the found index is where the separator occurs and none occurs before it; None only when it occurs nowhere |
| Text.JoinSplit | logic/main.py:202 | joining the pieces of `split(sep)` with `sep` gives the string back |
| Text.SplitPiecesFree | logic/main.py:202 | no piece of a split contains the separator |
| Text.SplitCons | logic/main.py:202 | a separator-free head followed by a one-character separator splits off as the first piece |
| Text.SplitNone | logic/main.py:202 | a string without the separator splits into itself alone |
| Text.SplitOne | logic/main.py:202 | `split` gives a single piece exactly when the separator does not occur |
| Text.ContainsChar | logic/main.py:60 | `c in s` for one character holds exactly when some position holds `c` |
| Text.TrimStart | logic/main.py:61 | the result is a suffix of the input, everything removed is whitespace, and it does not start with whitespace |
| Text.TrimEnd | logic/main.py:61 | the result is a prefix of the input, everything removed is whitespace, and it does not end with whitespace |
| Text.StripKeeps | logic/main.py:60-61 | `strip` keeps every non-space character, so an "=" present before stripping is present after |
| Text.StripNoop | logic/main.py:61 | a string with non-space characters at both ends is its own strip |
| Text.Lower | logic/main.py:54 | the key has no ASCII capital letter left: capitals become their lower-case letter, every other character is kept, the length is kept |
| Text.LowerIgnoresCase | logic/main.py:54 | header names that differ only in ASCII case give the same dictionary key |
| Text.LowerIdempotent | logic/main.py:54 | lower-casing an already lower-cased key changes nothing |
| Numerals.NatToString | portal/simplelogic.js:172 | the decimal text of a number is all digits, reads back as the number and has no leading zero |
| Numerals.PaddedMinute | portal/simplelogic.js:172 | a minute below 60 padded to two places is two digits that read back as the minute |
| Numerals.ValueOfLeadingZero | portal/simplelogic.js:172 | a leading zero does not change a numeral's value |
| Numerals.DigitPrefix | portal/simplelogic.js:226 | the digits `parseInt` reads are the longest all-digit prefix |
| Numerals.PyInt | logic/main.py:202 | `int(t)` succeeds exactly when the stripped text, without its sign, is a non-empty run of digits |
| Numerals.PyIntOfNumeral | logic/main.py:202 | `int` of a non-empty run of digits is its value |
| Numerals.JsParseInt | portal/simplelogic.js:226 | `parseInt` is NaN exactly when no digit follows the leading whitespace and sign |
| Numerals.JsParseIntOfNumeral | portal/simplelogic.js:226 | `parseInt` of a non-empty run of digits is its value |
| Schedule.ParseTimeFields | logic/main.py:201-203 | two integer fields around one colon give hours times 60 plus minutes, with no range check |
| Schedule.ParseTime | logic/main.py:202-203 | a string without a colon never converts |
| Schedule.ParseTimeParts | logic/main.py:202-203 | every string that converts is two colon-free integer fields around one colon, and its value is hours times 60 plus minutes |
| Schedule.ParseTimeTooManyColons | logic/main.py:202 | a time with two colons makes the two-name unpacking raise |
| Schedule.ParseEachSucceeds | logic/main.py:198-204 | a day converts exactly when every string entry holding ":" converts; other entries are skipped |
| Schedule.ParseEachValues | logic/main.py:198-204 | a converted day holds one value per kept entry, in order, each that entry's `h * 60 + m` |
| Schedule.ParseEachFailureSticks | logic/main.py:200-204 | once an entry raises, the day fails whatever follows |
| Schedule.ParseDayTimes | logic/main.py:199-204 | the inner loop returns the day's conversion, or None when an entry raises |
| Schedule.DayEntries | logic/main.py:198-200 | `for t in times` raises exactly for a day value that is not a list, a string or an object (null, a number, a boolean) |
| Schedule.ParseDay | logic/main.py:198-204 | a day value that cannot be iterated fails the conversion; a list converts entry by entry |
| Schedule.ColonAloneFails | logic/main.py:201-202 | the one-character string ":" splits into two empty fields and `int("")` raises |
| Schedule.TextDay | logic/main.py:198-204 | a day given as a string is walked character by character: it fails when the string holds ":" and is stored as an empty list otherwise |
| Schedule.ObjectDay | logic/main.py:198-204 | a day given as an object converts as the list of its keys |
| Schedule.ParseSchedule | logic/main.py:197-205 | the request converts exactly when every day does, and the result has exactly the request's days |
| Schedule.ParseScheduleIs | logic/main.py:197-205 | a request whose every day converts to the matching day of a map of the same days converts to that map |
| Weather.Window | logic/main.py:264 | `periods[:7]` is the first min(7, n) periods: exactly 7 when there are at least 7, all of them otherwise |
| Weather.MaxProbability | logic/main.py:263-269 | the running maximum from 0 is at least every period's probability (a missing value counting 0) and is 0 or one of them |
| Weather.MaxProbabilityStep | logic/main.py:264-269 | one more period raises the maximum exactly when its probability is larger |
| Weather.SuppressesMeaning | logic/main.py:263-271 | misting is turned off exactly when one of the first 7 periods reaches 60 |
| Weather.LaterPeriodsIgnored | logic/main.py:264 | periods after the seventh never change the decision |
| Weather.Appended | logic/main.py:220-222 | the log gains the entry last, keeps at most 21 entries, and is a suffix of the old log plus the entry |
| Weather.EvictsOldest | logic/main.py:220-222 | a full log drops exactly its oldest entry |
| Weather.KeepsAllBelowCapacity | logic/main.py:220-222 | below 21 entries nothing is dropped |
| Auth.Migrate | logic/main.py:89-97 | afterwards no plaintext password remains, its hash is stored, a pin shorter than 12 is replaced by its hash, a longer one stays, and other fields are kept |
| Auth.MigrateIdempotent | logic/main.py:89-97 | migrating a migrated record changes nothing |
| Auth.VerifyCredentials | logic/main.py:86-103 | success needs a stored credential of the kind offered: a pin (plain or hashed) when a pin is given, otherwise the stored username and a password (plain or hashed) |
| Auth.PinDecides | logic/main.py:101-102 | with a non-empty pin only the pin hash decides; username and password are ignored |
| Auth.PasswordNeedsBoth | logic/main.py:103 | without a pin both the username and the password hash must match |
| Auth.PlaintextPasswordAccepted | logic/main.py:86-103 | a password still stored in plaintext is accepted with the stored username |
| Auth.PlaintextPinAccepted | logic/main.py:86-103 | a short pin still stored in plaintext is accepted |
| Auth.SessionValid | logic/main.py:66-68 | a valid session is a non-empty token equal to the stored one; with no stored token nothing is valid |
| Auth.SingleSession | logic/main.py:66-68 | after a token is stored, a session is valid exactly when it is that non-empty token |
| Http.HeaderMap | logic/main.py:49-55 | every key of the header dictionary is lower-case |
| Http.HeaderMapKeys | logic/main.py:49-55 | a key is in the header dictionary exactly when some line after the request line has ": " and that lower-cased key |
| Http.HeaderMapLastWins | logic/main.py:49-55 | a key's value comes from the last line with that key |
| Http.ParseHeaders | logic/main.py:49-55 | the loop over the lines builds the header dictionary |
| Http.FirstCookieMeaning | logic/main.py:57-64 | `get_cookie` returns the value of the first pair naming the cookie, and None when none does |
| Http.GetCookie | logic/main.py:57-64 | without a `cookie` header there is no value; a value found comes from a pair of that header that names the cookie |
| Http.SessionCookie | logic/main.py:366-368 | the cookie sets `session=<token>; Path=/`, with a week's `Max-Age` exactly when `remember` is set |
| Http.SessionCookieRoundTrip | logic/main.py:57-64 | a token without ";" or whitespace ("=" allowed) sent back as the cookie header is what `get_cookie(headers, "session")` returns |
| Http.Authenticated | logic/main.py:357 | a valid session cookie authenticates, and so does the allowlist alone; without the allowlist, a request whose session cookie is not the stored non-empty token is not authenticated, in particular one with no cookie header or a device with no stored token |
| Http.StrangerRedirected | logic/main.py:356-357 | a request that is not allowlisted and carries a session cookie other than the stored token is unauthenticated, so the static fallback redirects it to "/" for every path except "/" and "/assets..." |
| Http.MimeType | logic/main.py:70-83 | the type is "text/html" exactly when the path has none of the six known extensions |
| Http.MimeTypeUnderPortal | logic/main.py:405 | rewriting a path under "/portal" keeps its content type |
| Http.StaticFallback | logic/main.py:401-405 | redirect exactly when unauthenticated, not "/" and not starting "/assets"; otherwise serve under "/portal": "/portal/index.html" for "/", "/portal" + path for any other path |
| Http.UnauthenticatedConfined | logic/main.py:401-405 | without a session only the index page and paths starting "/portal/assets" are served |
| Http.AssetsServedUnauthenticated | logic/main.py:401-405 | every path starting "/assets" is served as "/portal" + path without a session |
| Http.AssetsCheckIsTextual | logic/main.py:401-405 | a path climbing out of "/assets" with ".." passes the check unauthenticated |
| Controller.MistingUpdated | logic/main.py:179-191 | with a `misting_feature` object both flags are set, the rest of the config kept, and the relay follows `active`; otherwise nothing changes |
| Controller.ScheduleUpdated | logic/main.py:193-211 | on success the schedule is replaced wholesale by the request's days, each the conversion of its value; on failure nothing changes |
| Controller.ScalarDayRejected | logic/main.py:198-211 | a day whose value cannot be iterated makes the update return False and leaves the state unchanged |
| Controller.WeatherLogged | logic/main.py:213-230 | the log becomes the old log (empty when unreadable) with the entry appended and trimmed to the newest 21; it ends with the entry and holds 1 to 21 entries; nothing else changes |
| Controller.WeatherChecked | logic/main.py:247-275 | gated to once per 6 hours, stamped before the fetch, logging the first 7 periods and switching misting off on rain only after a successful fetch with known coordinates, with the schedule, location and wifi settings kept |
| Controller.ScheduleEvaluated | logic/main.py:297-319 | the override turns the relay on without bookkeeping, a trigger turns it on for 480 s and remembers the minute, otherwise it goes off once the off time is reached |
| Controller.Pass | logic/main.py:291-319 | one pass never touches the credentials, remembers the old minute or this one, and leaves the relay on only for the override, a trigger now, or an earlier trigger whose 480 s have not run out |
| Controller.OverrideWins | logic/main.py:291-308 | an override the weather check leaves standing keeps the relay on and the bookkeeping unchanged |
| Controller.NoRefireInSameMinute | logic/main.py:310-313 | after a pass that fires, a later pass in the same minute does not fire again |
| Controller.NextDaySameMinuteSkipped | logic/main.py:310-316 | with "mon" and "tue" both at 06:00, Monday's pass fires but Tuesday's pass a day later does not: the relay goes off and the off time stays at Monday's |
| Controller.OffWhenTimeIsUp | logic/main.py:310-316 | a pass at least 480 s after a trigger, with no override and no new trigger, turns the relay off |
| Controller.SuppressedPassEndsOff | logic/main.py:270-271 | a pass whose weather check suppresses misting ends with the relay off and both flags cleared |
| Controller.MondayMorningTrigger | logic/main.py:291-313 | Monday 06:00 with "mon" at 06:00 and 18:00 turns the relay on, remembers minute 360 and sets the off time 480 s ahead |
| Controller.CredentialsMigrated | logic/main.py:86-99 | after a check the stored record is the migrated one, so it holds no plaintext password, and nothing but the security record changed |
| Controller.LoggedIn | logic/main.py:359-369 | a login attempt changes only the security record, always removes the plaintext password; on success the record is the migrated one plus the token, on failure only the migrated one |
| Controller.LoginThenCookie | logic/main.py:359-369 | after a successful login, a later request carrying the session cookie set for a non-empty token free of ";" and whitespace is authenticated without the allowlist |
| Controller.LoginSession | logic/main.py:359-369 | a successful login makes exactly the new non-empty token valid; a failed one leaves session validity unchanged |
| Controller.Device.constructor | logic/main.py:17-27 | the device starts with the relay off, no trigger seen, off time 0 and no weather check |
| Controller.Device.UpdateMistingStatus | logic/main.py:179-191 | returns whether the update applied, and takes the `MistingUpdated` step |
| Controller.Device.UpdateSchedule | logic/main.py:193-211 | returns whether the schedule was accepted, and takes the `ScheduleUpdated` step |
| Controller.Device.LogWeather | logic/main.py:213-230 | takes the `WeatherLogged` step |
| Controller.Device.CheckWeather | logic/main.py:247-275 | takes the `WeatherChecked` step; its loop computes the maximum probability over the window |
| Controller.Device.RunSchedule | logic/main.py:291-319 | takes one pass: the weather check at its own clock reading, then the relay decision at the later one |
| Controller.Device.VerifyCredentials | logic/main.py:86-103 | returns the result of the check on the migrated record and stores the migrated record |
| Controller.Device.VerifySession | logic/main.py:66-68 | accepts only the stored non-empty token; nothing when no token is stored |
| Controller.Device.Login | logic/main.py:359-371 | on success stores the token as the one session and returns its cookie; on failure returns None |
| Portal.Hour12 | portal/simplelogic.js:167-171 | the 12-hour hour lies in 1..12 and agrees with the 24-hour hour modulo 12 |
| Portal.MinsToTime | portal/simplelogic.js:166-173 | the time is the 12-hour hour, ":" and the two-place minute, with "PM" exactly from minute 720 on |
| Portal.To24 | portal/simplelogic.js:227-228 | PM adds 12 to any hour but 12, AM turns 12 into 0, and everything else is kept |
| Portal.To24Bijective | portal/simplelogic.js:227-228 | on hours 1 to 12 with AM or PM the rule is one-to-one onto 0..23 |
| Portal.To24Inverts | portal/simplelogic.js:227-228 | the rule gives back the 24-hour hour that `minsToTime` split into hour and AM/PM |
| Portal.FormatSlotThrows | portal/simplelogic.js:225-229 | a selected slot throws exactly when its value has no ":" |
| Portal.ChosenMembers | portal/simplelogic.js:225 | the slots gathered are exactly those whose value is not "None" |
| Portal.GatherSlotsStep | portal/simplelogic.js:222-230 | one more slot is skipped when "None", else appended or the gather throws |
| Portal.GatherSlotsSucceed | portal/simplelogic.js:222-231 | a day gathers exactly when every chosen slot formats |
| Portal.GatherSlotsValues | portal/simplelogic.js:222-231 | a gathered day holds one string per chosen slot, in slot order |
| Portal.GatherSlotsFailureSticks | portal/simplelogic.js:222-231 | once a slot throws, the rest of the day cannot undo it |
| Portal.GatherEachStep | portal/simplelogic.js:217-233 | each day is skipped when unchecked, else adds its gathered times when there are any, or ends the gather when a slot throws |
| Portal.GatherEachMeaning | portal/simplelogic.js:217-233 | the result holds exactly the checked days with at least one time, each with its gathered strings |
| Portal.GatherEachSucceed | portal/simplelogic.js:217-233 | the gather throws exactly when a checked day throws |
| Portal.GatherEachIs | portal/simplelogic.js:217-233 | a form whose checked days gather and whose non-empty days are a given map gathers to that map |
| Portal.GatherEachFailureSticks | portal/simplelogic.js:217-233 | once a day throws, later days cannot undo it |
| Portal.GatherDays | portal/simplelogic.js:214-235 | the gather fails exactly when a checked day has a slot that throws; otherwise every day it holds is a checked day with at least one time, holding its gathered strings |
| Portal.GatherDaysMeaning | portal/simplelogic.js:214-235 | when the gather succeeds, it holds every checked day with at least one chosen time, and no other day |
| Portal.GatherSchedule | portal/simplelogic.js:214-235 | the loop over the seven days returns the gathered schedule, or None when a slot throws |
| Portal.GatherDaySlots | portal/simplelogic.js:221-231 | the loop over one day's slots returns that day's gathered strings, or None when a slot throws |
| Portal.TimeOptions | portal/simplelogic.js:69-75 | there are 48 time options, 4 per hour for 12 hours |
| Portal.TimeOptionsGrow | portal/simplelogic.js:70-74 | each step of the nested loop appends the next hour-and-quarter label |
| Portal.PopulateTimeOptions | portal/simplelogic.js:68-76 | the options are "None" followed by 1:00, 1:15, ... 12:45, hour by hour |
| Portal.QuarterHourListed | portal/simplelogic.js:68-76 | every quarter hour of the day, as `minsToTime` shows it, is one of the options |
| Portal.Positive | portal/simplelogic.js:193 | every kept minute is positive and every positive minute is kept; no more minutes than given |
| Portal.PositiveSingle | portal/simplelogic.js:193 | a single minute is kept exactly when it is positive |
| Portal.PositiveAppend | portal/simplelogic.js:193 | the filter distributes over concatenation, so the kept minutes stay in their order |
| Portal.PositiveCounts | portal/simplelogic.js:193 | each positive minute is kept as many times as it occurs, any other minute never |
| Portal.FilledSlotsShow | portal/simplelogic.js:194-204 | every slot shows an option or nothing; the first slots show the stored minutes when listed, with their half of the day; the rest show "None" and "AM" |
| Portal.FillTimes | portal/simplelogic.js:195-201 | each stored minute with a slot at its position sets that slot to `SlotFor` it; slots past the minutes are left as they were |
| Portal.ResetFrom | portal/simplelogic.js:202-205 | every slot from the number of minutes on is reset to "None" and "AM"; the slots before are left as they were |
| Portal.LoadDay | portal/simplelogic.js:190-205 | the checkbox is ticked exactly when a positive minute exists; the slots show the positive minutes in order, and the rest are reset |
| RoundTrip.FormatClock | portal/simplelogic.js:226-229 | a slot showing `minsToTime(m)` is sent as the 24-hour "H:MM" of `m` |
| RoundTrip.ParseClock | logic/main.py:202-203 | the 24-hour "H:MM" of a minute holds ":" and converts back to that minute |
| RoundTrip.ShownTimeIsNotNone | portal/simplelogic.js:225 | the shown time of a minute is never the text "None" |
| RoundTrip.QuarterSlotSends | portal/simplelogic.js:195-199 | a quarter-hour minute is shown as it is, and its slot sends back its "H:MM" |
| RoundTrip.QuarterLabelParts | portal/simplelogic.js:72-73 | each option splits at its colon into the hour and a numeral worth its minute |
| RoundTrip.OptionMinute | portal/simplelogic.js:70-74 | every option but "None" has a minute of 0, 15, 30 or 45 |
| RoundTrip.OffQuarterNotListed | portal/simplelogic.js:195-199 | a minute off the quarter hour matches no option |
| RoundTrip.OffQuarterSlotThrows | portal/simplelogic.js:225-229 | such a slot's dropdown is empty and gathering it throws |
| RoundTrip.ChosenPrefix | portal/simplelogic.js:202-205 | with the filled slots first and "None" after, the chosen slots are exactly the filled ones |
| RoundTrip.FilledQuarterSlots | portal/simplelogic.js:194-204 | slots filled with quarter hours are chosen and format to their "H:MM" strings; the rest are "None" |
| RoundTrip.GatherPrefix | portal/simplelogic.js:222-231 | slots whose first ones are chosen and format to given strings, the rest "None", gather to exactly those strings |
| RoundTrip.GatherFilled | portal/simplelogic.js:222-231 | slots filled with quarter hours gather to their "H:MM" strings |
| RoundTrip.ParseEachAll | logic/main.py:198-204 | a list of strings, each with ":" and each converting to its value, converts to those values |
| RoundTrip.ParseClocks | logic/main.py:198-204 | the device converts the sent strings back to the minutes |
| RoundTrip.DayRoundTrip | portal/simplelogic.js:189-205 | loading, gathering and saving one day gives back its positive minutes |
| RoundTrip.PositiveQuarterHours | portal/simplelogic.js:193 | the positive minutes of a quarter-hour day are quarter hours within the day |
| RoundTrip.LoadedGathered | portal/simplelogic.js:214-235 | gathering the loaded page sends each day with a positive minute, as "H:MM" strings |
| RoundTrip.SentDaysParse | logic/main.py:197-204 | every day sent converts back to that day's positive minutes |
| RoundTrip.ScheduleRoundTrip | logic/main.py:193-205 | saving the loaded page unchanged stores each of the seven days that has a positive minute, with those minutes in order |
| RoundTrip.SaveLoadedPage | logic/main.py:193-211 | loading the device's schedule into the page and saving it unchanged succeeds, stores `Resaved` of the old schedule and changes nothing else |
| RoundTrip.LateTimeAccepted | logic/main.py:202-203 | "25:00" is stored as minute 1500 |
| RoundTrip.LateTimeShown | portal/simplelogic.js:166-173 | minute 1500 is shown as 1:00 PM |
| RoundTrip.LateTimeResent | portal/simplelogic.js:226-229 | that slot is sent as "13:00", which is stored as minute 780 |

## Left out

- The socket loop, request reading, request-line parsing and route dispatch of `web_server` are not modelled. They are I/O, and as written the route table cannot run. Each handler is modelled separately.
- `serve_file` is not modelled because it is file I/O. The content type it picks is modelled as `Http.MimeType`.
- WiFi join, NTP sync, the UTC offset and `main` are not modelled because they are network and clock bootstrap. The clock values are inputs.
- `fetch_forecast` is not modelled because it is network I/O. Its result, or the empty list on failure, is an input to `WeatherChecked`, reduced to each period's precipitation value.
- `is_mac_whitelisted` and `auto_authenticate` are not modelled because they read the device address and a file. Their result is the boolean input of `Http.Authenticated`.
- `hash_password` and `generate_token` are not modelled. The hash is an uninterpreted function, and the token is an input.
- Storage writes are assumed to succeed. An unreadable config or log is modelled (`None`). A failing write after a successful read is not.
- `handle_get_config`, `GET /api/weather_log`, `http_json` and response framing are not modelled. They only read stored state or format bytes.
- `POST /api/weather_log` is modelled only through `log_weather`, which it calls with the decoded body (`Device.LogWeather`). Decoding the JSON body is not modelled.
- `weather_API.js`, `toggleDay`, `sendMisting`, `alertBox`, the dark-mode code and the page's event wiring are not modelled. They are display or I/O.
- The DOM is not modelled except for the one behaviour the properties need. Assigning a value that is not one of a `<select>`'s options leaves it with the value "".
- Numerals.PyInt: accepts ASCII digits, a sign and surrounding ASCII whitespace only. Underscores and non-ASCII digits, which MicroPython may accept, are not modelled.
- Numerals.JsParseInt: skips ASCII whitespace only. JavaScript also skips other Unicode space characters.
- Numerals.JsParseInt: returns an unbounded integer. JavaScript numbers are doubles, exact only up to 2^53, so numerals longer than 15 digits would round. The portal's values are hours and minutes of a few digits.
- Portal.MinsToTime: takes a natural number. JavaScript computes on doubles; the minutes it receives are integers the device stored, far below 2^53, so the arithmetic is exact.
- Text.Lower: maps ASCII letters only. Python's `lower` also maps non-ASCII letters.
- Controller.WeatherChecked: a probability value that is present but not a number is not modelled. Each period is reduced to an optional integer.
- Controller.MistingUpdated: a `misting_feature` object missing only one of its two flags is not distinguished. The object is either present with both flags or absent.
- Controller.ScheduleEvaluated: the time conversion in `run_schedule` (local time, `current_min`, weekday index) is not modelled. Those values are inputs.
- Portal.GatherDaySlots: takes the per-slot formatting as a parameter. `GatherSchedule` passes the model of the source's `split`/`parseInt`/`padStart` step.

=== FILE: auth.dfy ===
/**
 * Credential checking on the security record: one-way migration of plaintext
 * `password`/`pin` fields to hashes, the pin-or-password check, and the
 * single stored session token. The hash (SHA-256 in hex) is a parameter: no
 * property here depends on what it computes.
 */
module Auth {
  import opened Wrappers

  /** The security record: a JSON object with string fields. */
  type Record = map<string, string>

  /** A stored `pin` this long or longer is left alone (it is taken to be a hash already). */
  const PinMigrationLimit := 12

  /** `if "password" in data: data["password_hash"] = hash(...); del data["password"]`. */
  function MigratePassword(sec: Record, hash: string -> string): Record {
    if "password" in sec then sec["password_hash" := hash(sec["password"])] - {"password"} else sec
  }

  /** The same for a `pin` shorter than 12 characters. */
  function MigratePin(sec: Record, hash: string -> string): Record {
    if "pin" in sec && |sec["pin"]| < PinMigrationLimit then sec["pin_hash" := hash(sec["pin"])] - {"pin"} else sec
  }

  /**
   * The migration step of `verify_credentials`: afterwards there is no
   * plaintext password, a short pin is replaced by its hash, a long pin stays,
   * and every field other than the four involved is untouched.
   */
  function Migrate(sec: Record, hash: string -> string): (r: Record)
    ensures "password" !in r
    ensures "password" in sec ==> "password_hash" in r && r["password_hash"] == hash(sec["password"])
    ensures "password" !in sec ==> ("password_hash" in r <==> "password_hash" in sec)
    ensures "password" !in sec && "password_hash" in sec ==> r["password_hash"] == sec["password_hash"]
    ensures "pin" in sec && |sec["pin"]| < PinMigrationLimit ==>
      "pin" !in r && "pin_hash" in r && r["pin_hash"] == hash(sec["pin"])
    ensures "pin" in sec && |sec["pin"]| >= PinMigrationLimit ==>
      "pin" in r && r["pin"] == sec["pin"] && ("pin_hash" in r <==> "pin_hash" in sec)
    ensures "pin" !in sec ==> "pin" !in r && ("pin_hash" in r <==> "pin_hash" in sec)
    ensures forall k :: k in r && k != "pin_hash" && k != "password_hash" ==> k in sec && r[k] == sec[k]
    ensures forall k :: k in sec && k != "password" && k != "pin" ==> k in r
    ensures "pin" !in sec || |sec["pin"]| >= PinMigrationLimit ==>
      "pin_hash" in sec ==> r["pin_hash"] == sec["pin_hash"]
  {
    MigratePin(MigratePassword(sec, hash), hash)
  }

  /** Migrating twice changes nothing more than migrating once. */
  lemma MigrateIdempotent(sec: Record, hash: string -> string)
    ensures Migrate(Migrate(sec, hash), hash) == Migrate(sec, hash)
  {
    var once := Migrate(sec, hash);
    assert MigratePassword(once, hash) == once;
    assert MigratePin(once, hash) == once;
  }

  /** Python truthiness of the optional `pin` argument: present and non-empty. */
  predicate PinGiven(pin: Option<string>) {
    pin.Some? && pin.value != ""
  }

  /** The comparison of `verify_credentials`, made on the migrated record. */
  predicate CredentialsMatch(sec: Record, username: string, password: string, pin: Option<string>, hash: string -> string) {
    if PinGiven(pin) then
      "pin_hash" in sec && hash(pin.value) == sec["pin_hash"]
    else
      "username" in sec && sec["username"] == username &&
      "password_hash" in sec && hash(password) == sec["password_hash"]
  }

  /**
   * `verify_credentials`: migrate, then compare. Success needs a stored
   * credential of the kind offered: a pin (plain or hashed) when a pin is
   * given, otherwise the stored username and a password (plain or hashed).
   */
  predicate VerifyCredentials(sec: Record, username: string, password: string, pin: Option<string>, hash: string -> string)
    ensures VerifyCredentials(sec, username, password, pin, hash) && PinGiven(pin) ==>
      "pin" in sec || "pin_hash" in sec
    ensures VerifyCredentials(sec, username, password, pin, hash) && !PinGiven(pin) ==>
      "username" in sec && sec["username"] == username && ("password" in sec || "password_hash" in sec)
  {
    CredentialsMatch(Migrate(sec, hash), username, password, pin, hash)
  }

  /** With a pin, only the pin decides: username and password are ignored. */
  lemma PinDecides(sec: Record, u1: string, p1: string, u2: string, p2: string, pin: Option<string>, hash: string -> string)
    requires PinGiven(pin)
    ensures VerifyCredentials(sec, u1, p1, pin, hash) == VerifyCredentials(sec, u2, p2, pin, hash)
    ensures VerifyCredentials(sec, u1, p1, pin, hash) <==>
      var m := Migrate(sec, hash); "pin_hash" in m && hash(pin.value) == m["pin_hash"]
  {
  }

  /** Without a pin, success needs the stored username and the password's hash both to match. */
  lemma PasswordNeedsBoth(sec: Record, username: string, password: string, pin: Option<string>, hash: string -> string)
    requires !PinGiven(pin)
    ensures VerifyCredentials(sec, username, password, pin, hash) <==>
      var m := Migrate(sec, hash);
      "username" in m && m["username"] == username && "password_hash" in m && hash(password) == m["password_hash"]
  {
  }

  /** A password still stored in plaintext keeps working: it is migrated and then matched. */
  lemma PlaintextPasswordAccepted(sec: Record, hash: string -> string)
    requires "username" in sec && "password" in sec
    ensures VerifyCredentials(sec, sec["username"], sec["password"], None, hash)
  {
  }

  /** A short pin still stored in plaintext keeps working. */
  lemma PlaintextPinAccepted(sec: Record, hash: string -> string, username: string, password: string)
    requires "pin" in sec && 0 < |sec["pin"]| < PinMigrationLimit
    ensures VerifyCredentials(sec, username, password, Some(sec["pin"]), hash)
  {
  }

  /** `verify_session`: the token is present, non-empty and equal to the stored one. */
  predicate SessionValid(sec: Record, token: Option<string>)
    ensures SessionValid(sec, token) ==> "session_token" in sec && sec["session_token"] != ""
    ensures SessionValid(sec, token) ==> token == Some(sec["session_token"])
  {
    token.Some? && token.value != "" && "session_token" in sec && sec["session_token"] == token.value
  }

  /** Storing a new token leaves exactly that token valid: earlier sessions end. */
  lemma SingleSession(sec: Record, issued: string, token: Option<string>)
    ensures SessionValid(sec["session_token" := issued], token) <==> issued != "" && token == Some(issued)
  {
  }
}

=== FILE: controller.dfy ===
/**
 * The device controller: the stored config, the security record, the weather
 * log, the schedule runtime state and the relay. Each operation is first a
 * step function on a `State` value, where its properties are proved, and then
 * a method of `Device`, which updates the same fields in place and is proved
 * to take exactly that step.
 */
module Controller {
  import opened Wrappers
  import opened Schedule
  import opened Weather
  import Auth
  import Http
  import Text

  /** `misting_feature`: automation permitted, manual override on. */
  datatype Misting = Misting(automationEnabled: bool, active: bool)

  /** `location`: latitude and longitude, each possibly missing. */
  datatype Location = Location(lat: Option<real>, lon: Option<real>)

  /**
   * The device config record. `misting` is None when the `misting_feature`
   * object is missing; `wifi` stands for the fields no operation here writes.
   */
  datatype Config = Config(
    misting: Option<Misting>,
    schedule: map<string, seq<int>>,
    location: Location,
    wifi: map<string, string>)

  /**
   * Everything the controller reads and writes. `config` is None when the
   * config file cannot be read; `weatherLog` is None when the log cannot be.
   */
  datatype State = State(
    config: Option<Config>,
    security: Auth.Record,
    weatherLog: Option<seq<WeatherEntry>>,
    lastTriggerMin: int,
    relayOffTime: int,
    lastWeatherCheck: int,
    relay: bool)

  /** Seconds the relay stays on after an automatic trigger. */
  const OnDuration := 480

  /** The day keys indexed by `time.localtime()[6]`, Monday first. */
  const Weekdays: seq<string> := ["mon", "tue", "wed", "thu", "fri", "sat", "sun"]

  /** The state at power-up: relay off, no trigger seen, no off time, no weather check yet. */
  function Boot(config: Option<Config>, security: Auth.Record, weatherLog: Option<seq<WeatherEntry>>): State {
    State(config, security, weatherLog, -1, 0, 0, false)
  }

  // ----- update_misting_status -----

  /** The update succeeds when the config reads and has a `misting_feature` object. */
  predicate MistingWritable(s: State) {
    s.config.Some? && s.config.value.misting.Some?
  }

  /**
   * `update_misting_status(enabled, active)`: on success both flags are set,
   * the rest of the config is kept and the relay follows `active`; on failure
   * nothing changes.
   */
  function MistingUpdated(s: State, enabled: bool, active: bool): (r: State)
    ensures MistingWritable(s) ==>
      r.config.Some? && r.config.value.misting == Some(Misting(enabled, active)) &&
      r.config.value.schedule == s.config.value.schedule &&
      r.config.value.location == s.config.value.location &&
      r.config.value.wifi == s.config.value.wifi &&
      r.relay == active
    ensures !MistingWritable(s) ==> r == s
    ensures r.security == s.security && r.weatherLog == s.weatherLog
    ensures r.lastTriggerMin == s.lastTriggerMin && r.relayOffTime == s.relayOffTime
    ensures r.lastWeatherCheck == s.lastWeatherCheck
  {
    if MistingWritable(s) then
      s.(config := Some(s.config.value.(misting := Some(Misting(enabled, active)))), relay := active)
    else
      s
  }

  // ----- update_schedule -----

  /** The update succeeds when the config reads and every kept entry parses. */
  predicate ScheduleAccepted(s: State, request: map<string, DayValue>) {
    s.config.Some? && ParseSchedule(request).Some?
  }

  /**
   * `update_schedule(request)`: on success the stored schedule is replaced
   * wholesale by the request's days, each with its converted minutes; on
   * failure nothing changes.
   */
  function ScheduleUpdated(s: State, request: map<string, DayValue>): (r: State)
    ensures ScheduleAccepted(s, request) ==>
      r.config.Some? && r.config.value.schedule.Keys == request.Keys &&
      (forall d :: d in request ==> ParseDay(request[d]) == Some(r.config.value.schedule[d])) &&
      r.config.value.misting == s.config.value.misting &&
      r.config.value.location == s.config.value.location &&
      r.config.value.wifi == s.config.value.wifi &&
      r == s.(config := r.config)
    ensures !ScheduleAccepted(s, request) ==> r == s
  {
    if ScheduleAccepted(s, request) then
      s.(config := Some(s.config.value.(schedule := ParseSchedule(request).value)))
    else
      s
  }

  /** A day whose value cannot be iterated makes the whole update fail and change nothing. */
  lemma ScalarDayRejected(s: State, request: map<string, DayValue>, day: string)
    requires day in request && request[day] == Scalar
    ensures !ScheduleAccepted(s, request) && ScheduleUpdated(s, request) == s
  {
  }

  // ----- log_weather -----

  /**
   * `log_weather(entry)`: an unreadable log counts as empty; afterwards the
   * log holds at most 21 entries and ends with `entry`. Nothing else changes.
   */
  function WeatherLogged(s: State, entry: WeatherEntry): (r: State)
    ensures r.weatherLog.Some? && 1 <= |r.weatherLog.value| <= LogCapacity
    ensures r.weatherLog.value[|r.weatherLog.value| - 1] == entry
    ensures r.weatherLog == Some(Appended(s.weatherLog.GetOr([]), entry))
    ensures r == s.(weatherLog := r.weatherLog)
  {
    s.(weatherLog := Some(Appended(s.weatherLog.GetOr([]), entry)))
  }

  // ----- check_weather -----

  predicate CheckDue(s: State, now: int) {
    now - s.lastWeatherCheck >= CheckInterval
  }

  /** The config reads and has both coordinates. */
  predicate LocationKnown(s: State) {
    s.config.Some? && s.config.value.location.lat.Some? && s.config.value.location.lon.Some?
  }

  /** A check that gets as far as a non-empty forecast. */
  predicate Fetches(s: State, now: int, forecast: seq<Period>) {
    CheckDue(s, now) && LocationKnown(s) && forecast != []
  }

  /** A check that turns misting off: the fetch succeeds, it rains, and the flags can be written. */
  predicate SuppressesMisting(s: State, now: int, forecast: seq<Period>) {
    Fetches(s, now, forecast) && Suppresses(forecast) && MistingWritable(s)
  }

  /**
   * `check_weather(now)` with the forecast fetch's result as input (empty for
   * a failed fetch): gated to once per 6 hours, stamped before anything is
   * read, suppressing and logging only on a successful fetch.
   */
  function WeatherChecked(s: State, now: int, forecast: seq<Period>): (r: State)
    ensures !CheckDue(s, now) ==> r == s
    ensures CheckDue(s, now) ==> r.lastWeatherCheck == now
    ensures !Fetches(s, now, forecast) ==> r == s.(lastWeatherCheck := r.lastWeatherCheck)
    ensures Fetches(s, now, forecast) ==>
      r.weatherLog == Some(Appended(s.weatherLog.GetOr([]), WeatherEntry(now, Window(forecast)))) &&
      |r.weatherLog.value[|r.weatherLog.value| - 1].periods| <= ForecastWindow
    ensures SuppressesMisting(s, now, forecast) ==>
      r.config == Some(s.config.value.(misting := Some(Misting(false, false)))) && !r.relay
    ensures !SuppressesMisting(s, now, forecast) ==> r.config == s.config && r.relay == s.relay
    ensures r.security == s.security && r.lastTriggerMin == s.lastTriggerMin && r.relayOffTime == s.relayOffTime
  {
    if !CheckDue(s, now) then s
    else
      var stamped := s.(lastWeatherCheck := now);
      if !Fetches(s, now, forecast) then stamped
      else
        var after := if Suppresses(forecast) then MistingUpdated(stamped, false, false) else stamped;
        WeatherLogged(after, WeatherEntry(now, Window(forecast)))
  }

  // ----- run_schedule -----

  predicate OverrideActive(s: State) {
    s.config.Some? && s.config.value.misting.Some? && s.config.value.misting.value.active
  }

  predicate AutomationEnabled(s: State) {
    s.config.Some? && s.config.value.misting.Some? && s.config.value.misting.value.automationEnabled
  }

  /** Today's trigger minutes (`schedule.get(today, [])`). */
  function Today(c: Config, weekday: nat): seq<int>
    requires weekday < |Weekdays|
  {
    if Weekdays[weekday] in c.schedule then c.schedule[Weekdays[weekday]] else []
  }

  /** The automatic trigger applies: no override, automation on, a listed minute not yet fired. */
  predicate Fires(s: State, currentMin: int, weekday: nat)
    requires weekday < |Weekdays|
  {
    s.config.Some? && !OverrideActive(s) && AutomationEnabled(s) &&
    currentMin in Today(s.config.value, weekday) && currentMin != s.lastTriggerMin
  }

  /**
   * The relay decision of `run_schedule`, after the weather check: the
   * override turns the relay on and skips the bookkeeping; a trigger turns it
   * on for 480 seconds and remembers the minute; otherwise the relay goes off
   * once the off time is reached and is left alone before it. An unreadable
   * config changes nothing.
   */
  function ScheduleEvaluated(s: State, now: int, currentMin: int, weekday: nat): (r: State)
    requires weekday < |Weekdays|
    ensures r == s.(relay := r.relay, lastTriggerMin := r.lastTriggerMin, relayOffTime := r.relayOffTime)
    ensures s.config.None? ==> r == s
    ensures OverrideActive(s) ==>
      r.relay && r.lastTriggerMin == s.lastTriggerMin && r.relayOffTime == s.relayOffTime
    ensures Fires(s, currentMin, weekday) ==>
      r.relay && r.lastTriggerMin == currentMin && r.relayOffTime == now + OnDuration
    ensures s.config.Some? && !OverrideActive(s) && !Fires(s, currentMin, weekday) ==>
      r.lastTriggerMin == s.lastTriggerMin && r.relayOffTime == s.relayOffTime &&
      r.relay == (s.relay && now < s.relayOffTime)
  {
    if s.config.None? then s
    else
      var c := s.config.value;
      var autoEnabled := c.misting.Some? && c.misting.value.automationEnabled;
      var activeManual := c.misting.Some? && c.misting.value.active;
      var todays := Today(c, weekday);
      if activeManual then s.(relay := true)
      else if autoEnabled && currentMin in todays && currentMin != s.lastTriggerMin then
        s.(relay := true, lastTriggerMin := currentMin, relayOffTime := now + OnDuration)
      else if now >= s.relayOffTime then s.(relay := false)
      else s
  }

  /**
   * One pass of `run_schedule`: the weather check first, then the relay
   * decision. The source reads the clock separately for each: `checkNow` is
   * the time `check_weather` reads, `now` the later one `run_schedule` reads.
   * A pass never touches the credentials, remembers either the old minute or
   * this one, and leaves the relay on only for a reason: the override, a
   * trigger now, or an earlier trigger whose 480 seconds have not run out
   * (or a config that cannot be read, which leaves the relay as it was).
   */
  function Pass(s: State, checkNow: int, now: int, currentMin: int, weekday: nat, forecast: seq<Period>): (r: State)
    requires weekday < |Weekdays|
    ensures r.security == s.security
    ensures r.lastTriggerMin == s.lastTriggerMin || r.lastTriggerMin == currentMin
    ensures r.relay ==>
      OverrideActive(r) ||
      (r.lastTriggerMin == currentMin && r.relayOffTime == now + OnDuration) ||
      (s.relay && r.relayOffTime == s.relayOffTime && (now < s.relayOffTime || r.config.None?))
  {
    ScheduleEvaluated(WeatherChecked(s, checkNow, forecast), now, currentMin, weekday)
  }

  /**
   * An override that the weather check leaves standing wins the pass: relay
   * on, whatever the automation flag and the schedule say, bookkeeping untouched.
   */
  lemma OverrideWins(s: State, checkNow: int, now: int, currentMin: int, weekday: nat, forecast: seq<Period>)
    requires weekday < |Weekdays|
    requires OverrideActive(s) && !SuppressesMisting(s, checkNow, forecast)
    ensures Pass(s, checkNow, now, currentMin, weekday, forecast).relay
    ensures Pass(s, checkNow, now, currentMin, weekday, forecast).lastTriggerMin == s.lastTriggerMin
    ensures Pass(s, checkNow, now, currentMin, weekday, forecast).relayOffTime == s.relayOffTime
  {
    assert OverrideActive(WeatherChecked(s, checkNow, forecast));
  }

  /** A pass that fires, then any later pass in the same minute: the second one does not fire again. */
  lemma {:induction false} NoRefireInSameMinute(s: State, check1: int, now1: int, check2: int, now2: int,
                                                currentMin: int, weekday: nat,
                                                forecast1: seq<Period>, forecast2: seq<Period>)
    requires weekday < |Weekdays|
    requires Fires(WeatherChecked(s, check1, forecast1), currentMin, weekday)
    ensures var s1 := Pass(s, check1, now1, currentMin, weekday, forecast1);
      s1.relay && s1.lastTriggerMin == currentMin && s1.relayOffTime == now1 + OnDuration
    ensures var s2 := Pass(Pass(s, check1, now1, currentMin, weekday, forecast1), check2, now2, currentMin, weekday, forecast2);
      s2.lastTriggerMin == currentMin && s2.relayOffTime == now1 + OnDuration
  {
    var s1 := Pass(s, check1, now1, currentMin, weekday, forecast1);
    var w := WeatherChecked(s1, check2, forecast2);
    assert w.lastTriggerMin == currentMin;
    assert !Fires(w, currentMin, weekday);
  }

  /**
   * The trigger guard remembers only the minute of the day, not the day: a
   * pass that fires on Monday at 06:00, followed a day later by Tuesday's pass
   * at 06:00 with "tue" also scheduled at 06:00, does not fire on Tuesday. The
   * relay goes off and the off time stays at Monday's.
   */
  lemma NextDaySameMinuteSkipped(s: State, check1: int, now1: int, check2: int, forecast1: seq<Period>,
                                 forecast2: seq<Period>)
    requires s.config.Some? && s.config.value.schedule == map["mon" := [360], "tue" := [360]]
    requires s.config.value.misting == Some(Misting(true, false))
    requires s.lastTriggerMin == -1 && !CheckDue(s, check1)
    ensures var s1 := Pass(s, check1, now1, 360, 0, forecast1);
      s1.relay && s1.lastTriggerMin == 360 && s1.relayOffTime == now1 + OnDuration
    ensures var s2 := Pass(Pass(s, check1, now1, 360, 0, forecast1), check2, now1 + 86400, 360, 1, forecast2);
      !s2.relay && s2.lastTriggerMin == 360 && s2.relayOffTime == now1 + OnDuration
  {
    assert Today(s.config.value, 0) == [360];
    assert Fires(s, 360, 0);
    var s1 := Pass(s, check1, now1, 360, 0, forecast1);
    var w := WeatherChecked(s1, check2, forecast2);
    assert w.config.Some? && w.lastTriggerMin == 360;
    assert !Fires(w, 360, 1);
    assert !OverrideActive(w) by {
      assert s1.config == s.config;
      if !SuppressesMisting(s1, check2, forecast2) {
        assert w.config == s1.config;
      }
    }
  }

  /**
   * After a trigger at `now1`, a pass at or after `now1 + 480` in which neither
   * the override nor a new trigger applies turns the relay off.
   */
  lemma OffWhenTimeIsUp(s: State, check1: int, now1: int, check2: int, now2: int, min1: int, min2: int,
                        day1: nat, day2: nat, forecast1: seq<Period>, forecast2: seq<Period>)
    requires day1 < |Weekdays| && day2 < |Weekdays|
    requires Fires(WeatherChecked(s, check1, forecast1), min1, day1)
    requires now2 >= now1 + OnDuration
    requires var w := WeatherChecked(Pass(s, check1, now1, min1, day1, forecast1), check2, forecast2);
      !OverrideActive(w) && !Fires(w, min2, day2)
    ensures !Pass(Pass(s, check1, now1, min1, day1, forecast1), check2, now2, min2, day2, forecast2).relay
  {
    var s1 := Pass(s, check1, now1, min1, day1, forecast1);
    var w := WeatherChecked(s1, check2, forecast2);
    assert w.config.Some?;
  }

  /** A pass whose weather check suppresses misting ends with the relay off. */
  lemma SuppressedPassEndsOff(s: State, checkNow: int, now: int, currentMin: int, weekday: nat, forecast: seq<Period>)
    requires weekday < |Weekdays|
    requires SuppressesMisting(s, checkNow, forecast)
    ensures !Pass(s, checkNow, now, currentMin, weekday, forecast).relay
    ensures Pass(s, checkNow, now, currentMin, weekday, forecast).config.value.misting == Some(Misting(false, false))
  {
    var w := WeatherChecked(s, checkNow, forecast);
    assert !OverrideActive(w) && !Fires(w, currentMin, weekday);
  }

  /**
   * Monday 06:00 with "mon" scheduled at 06:00 and 18:00, automation on, no
   * override and no weather check due: the relay goes on for 480 seconds.
   */
  lemma MondayMorningTrigger(s: State, checkNow: int, now: int, forecast: seq<Period>)
    requires s.config.Some? && s.config.value.schedule == map["mon" := [360, 1080]]
    requires s.config.value.misting == Some(Misting(true, false))
    requires s.lastTriggerMin == -1 && !CheckDue(s, checkNow)
    ensures var r := Pass(s, checkNow, now, 6 * 60, 0, forecast);
      r.relay && r.lastTriggerMin == 360 && r.relayOffTime == now + 480
  {
    assert Today(s.config.value, 0) == [360, 1080];
    assert Fires(s, 360, 0);
  }

  // ----- verify_credentials and the login route -----

  /** `verify_credentials`: the record after migration (the check itself is `Auth.VerifyCredentials`). */
  function CredentialsMigrated(s: State, hash: string -> string): (r: State)
    ensures "password" !in r.security
    ensures r.security == Auth.Migrate(s.security, hash)
    ensures r == s.(security := r.security)
  {
    s.(security := Auth.Migrate(s.security, hash))
  }

  /** POST /api/auth: verify, then on success store `token` as the one session token. */
  function LoggedIn(s: State, username: string, password: string, pin: Option<string>,
                    token: string, hash: string -> string): (r: State)
    ensures r == s.(security := r.security)
    ensures "password" !in r.security
    ensures Auth.VerifyCredentials(s.security, username, password, pin, hash) ==>
      "session_token" in r.security && r.security["session_token"] == token
    ensures Auth.VerifyCredentials(s.security, username, password, pin, hash) ==>
      r.security == Auth.Migrate(s.security, hash)["session_token" := token]
    ensures !Auth.VerifyCredentials(s.security, username, password, pin, hash) ==>
      r.security == Auth.Migrate(s.security, hash)
  {
    var m := CredentialsMigrated(s, hash);
    if Auth.VerifyCredentials(s.security, username, password, pin, hash) then
      m.(security := m.security["session_token" := token])
    else
      m
  }

  /**
   * A successful login with a non-empty token makes exactly that token a
   * valid session; a failed one leaves every session as valid as it was.
   */
  lemma LoginSession(s: State, username: string, password: string, pin: Option<string>,
                     token: string, hash: string -> string, other: Option<string>)
    ensures var r := LoggedIn(s, username, password, pin, token, hash);
      Auth.VerifyCredentials(s.security, username, password, pin, hash) ==>
        (Auth.SessionValid(r.security, other) <==> token != "" && other == Some(token))
    ensures var r := LoggedIn(s, username, password, pin, token, hash);
      !Auth.VerifyCredentials(s.security, username, password, pin, hash) ==>
        (Auth.SessionValid(r.security, other) <==> Auth.SessionValid(s.security, other))
  {
    var m := Auth.Migrate(s.security, hash);
    assert ("session_token" in m <==> "session_token" in s.security);
  }

  /**
   * The cookie a successful login sets, sent back on a later request, makes
   * that request authenticated without the device-address allowlist.
   */
  lemma LoginThenCookie(s: State, username: string, password: string, pin: Option<string>,
                        token: string, hash: string -> string)
    requires Auth.VerifyCredentials(s.security, username, password, pin, hash)
    requires token != ""
    requires forall i :: 0 <= i < |token| ==> token[i] != ';' && !Text.IsSpace(token[i])
    ensures Http.Authenticated(LoggedIn(s, username, password, pin, token, hash).security,
                               map["cookie" := "session=" + token], false)
  {
    Http.SessionCookieRoundTrip(token);
    LoginSession(s, username, password, pin, token, hash, Some(token));
  }

  /** The controller's fields, updated in place by the source's functions. */
  class Device {
    var config: Option<Config>
    var security: Auth.Record
    var weatherLog: Option<seq<WeatherEntry>>
    var lastTriggerMin: int
    var relayOffTime: int
    var lastWeatherCheck: int
    var relay: bool
    /** `hash_password`. */
    const hash: string -> string

    function Snapshot(): State
      reads this
    {
      State(config, security, weatherLog, lastTriggerMin, relayOffTime, lastWeatherCheck, relay)
    }

    constructor (config: Option<Config>, security: Auth.Record, weatherLog: Option<seq<WeatherEntry>>,
                 hash: string -> string)
      ensures Snapshot() == Boot(config, security, weatherLog) && this.hash == hash
    {
      this.config := config;
      this.security := security;
      this.weatherLog := weatherLog;
      this.hash := hash;
      lastTriggerMin := -1;
      relayOffTime := 0;
      lastWeatherCheck := 0;
      relay := false;
    }

    method UpdateMistingStatus(enabled: bool, active: bool) returns (ok: bool)
      modifies this
      ensures ok == MistingWritable(old(Snapshot()))
      ensures Snapshot() == MistingUpdated(old(Snapshot()), enabled, active)
    {
      if config.None? || config.value.misting.None? {
        return false;
      }
      config := Some(config.value.(misting := Some(Misting(enabled, active))));
      relay := active;
      ok := true;
    }

    method UpdateSchedule(request: map<string, DayValue>) returns (ok: bool)
      modifies this
      ensures ok == ScheduleAccepted(old(Snapshot()), request)
      ensures Snapshot() == ScheduleUpdated(old(Snapshot()), request)
    {
      if config.None? {
        return false;
      }
      var stored := config.value;
      var parsed: map<string, seq<int>> := map[];
      var pending := request.Keys;
      while pending != {}
        invariant unchanged(this)
        invariant pending <= request.Keys
        invariant forall d :: d in request && d !in pending ==> ParseDay(request[d]).Some?
        invariant parsed == map d | d in request && d !in pending :: ParseDay(request[d]).value
        decreases pending
      {
        var day :| day in pending;
        var entries := DayEntries(request[day]);
        if entries.None? {
          assert ParseSchedule(request).None?;
          return false;
        }
        var mins := ParseDayTimes(entries.value);
        if mins.None? {
          assert ParseSchedule(request).None?;
          return false;
        }
        parsed := parsed[day := mins.value];
        pending := pending - {day};
      }
      assert forall d :: d in request ==> ParseDay(request[d]).Some?;
      assert parsed == map d | d in request :: ParseDay(request[d]).value;
      assert ParseSchedule(request) == Some(parsed);
      config := Some(stored.(schedule := parsed));
      ok := true;
    }

    method LogWeather(entry: WeatherEntry)
      modifies this
      ensures Snapshot() == WeatherLogged(old(Snapshot()), entry)
    {
      var history := if weatherLog.Some? then weatherLog.value else [];
      history := history + [entry];
      if |history| > LogCapacity {
        history := history[|history| - LogCapacity..];
      }
      weatherLog := Some(history);
    }

    method CheckWeather(now: int, forecast: seq<Period>)
      modifies this
      ensures Snapshot() == WeatherChecked(old(Snapshot()), now, forecast)
    {
      if now - lastWeatherCheck < CheckInterval {
        return;
      }
      lastWeatherCheck := now;
      if config.None? {
        return;
      }
      var loc := config.value.location;
      if loc.lat.None? || loc.lon.None? {
        return;
      }
      if forecast == [] {
        return;
      }
      var window := Window(forecast);
      var maxProb := 0;
      var i := 0;
      while i < |window|
        invariant 0 <= i <= |window|
        invariant maxProb == MaxProbability(window[..i])
        modifies {}
      {
        MaxProbabilityStep(window, i);
        var v := if window[i].None? then 0 else window[i].value;
        if v > maxProb {
          maxProb := v;
        }
        i := i + 1;
      }
      assert window[..i] == window;
      ghost var stamped := Snapshot();
      assert Fetches(old(Snapshot()), now, forecast);
      assert stamped == old(Snapshot()).(lastWeatherCheck := now);
      if maxProb >= RainThreshold {
        assert Suppresses(forecast);
        var _ := UpdateMistingStatus(false, false);
        assert Snapshot() == MistingUpdated(stamped, false, false);
      } else {
        assert !Suppresses(forecast) && Snapshot() == stamped;
      }
      LogWeather(WeatherEntry(now, window));
    }

    method RunSchedule(checkNow: int, now: int, currentMin: int, weekday: nat, forecast: seq<Period>)
      requires weekday < |Weekdays|
      modifies this
      ensures Snapshot() == Pass(old(Snapshot()), checkNow, now, currentMin, weekday, forecast)
    {
      CheckWeather(checkNow, forecast);
      if config.None? {
        return;
      }
      var c := config.value;
      var autoEnabled := c.misting.Some? && c.misting.value.automationEnabled;
      var activeManual := c.misting.Some? && c.misting.value.active;
      var today := Weekdays[weekday];
      var todays := if today in c.schedule then c.schedule[today] else [];
      if activeManual {
        relay := true;
        return;
      }
      if autoEnabled && currentMin in todays && currentMin != lastTriggerMin {
        relay := true;
        lastTriggerMin := currentMin;
        relayOffTime := now + OnDuration;
      } else if now >= relayOffTime {
        relay := false;
      }
    }

    method VerifyCredentials(username: string, password: string, pin: Option<string>) returns (ok: bool)
      modifies this
      ensures ok == Auth.VerifyCredentials(old(security), username, password, pin, hash)
      ensures Snapshot() == CredentialsMigrated(old(Snapshot()), hash)
    {
      var data := security;
      if "password" in data {
        data := data["password_hash" := hash(data["password"])];
        data := data - {"password"};
      }
      assert data == Auth.MigratePassword(old(security), hash);
      if "pin" in data && |data["pin"]| < Auth.PinMigrationLimit {
        data := data["pin_hash" := hash(data["pin"])];
        data := data - {"pin"};
      }
      assert data == Auth.Migrate(old(security), hash);
      security := data;
      if pin.Some? && pin.value != "" {
        ok := "pin_hash" in data && hash(pin.value) == data["pin_hash"];
      } else {
        ok := "username" in data && data["username"] == username &&
              "password_hash" in data && hash(password) == data["password_hash"];
      }
    }

    /** `verify_session`: only the one stored, non-empty token is accepted. */
    function VerifySession(token: Option<string>): (r: bool)
      reads this
      ensures r ==> "session_token" in security && security["session_token"] != "" && token == Some(security["session_token"])
      ensures "session_token" !in security ==> !r
    {
      Auth.SessionValid(security, token)
    }

    /** POST /api/auth: the Set-Cookie value on success, None on failure. */
    method Login(username: string, password: string, pin: Option<string>, remember: bool, token: string)
      returns (setCookie: Option<string>)
      modifies this
      ensures setCookie == if Auth.VerifyCredentials(old(security), username, password, pin, hash)
        then Some(Http.SessionCookie(token, remember)) else None
      ensures Snapshot() == LoggedIn(old(Snapshot()), username, password, pin, token, hash)
    {
      var ok := VerifyCredentials(username, password, pin);
      if !ok {
        return None;
      }
      security := security["session_token" := token];
      setCookie := Some(Http.SessionCookie(token, remember));
    }
  }
}

=== FILE: http.dfy ===
/**
 * The request helpers of the device's web server: header parsing, cookie
 * lookup, the login cookie, the content type of a served file, and the
 * decision taken for a path no API route claims.
 */
module Http {
  import opened Wrappers
  import opened Text
  import Auth

  /** A header line is one holding ": "; it splits at the first occurrence. */
  predicate IsHeaderLine(line: string) {
    Contains(line, ": ")
  }

  /** The lower-cased text before the first ": ". */
  function HeaderKey(line: string): string
    requires IsHeaderLine(line)
  {
    Lower(line[..Find(line, ": ").value])
  }

  /** Everything after the first ": ". */
  function HeaderValue(line: string): string
    requires IsHeaderLine(line)
  {
    line[Find(line, ": ").value + 2..]
  }

  /**
   * The dictionary built from `lines`, later lines overwriting earlier ones.
   * Its keys are lower-cased, so a lookup of "cookie" finds a `Cookie` line.
   */
  function HeaderMap(lines: seq<string>): (r: map<string, string>)
    ensures forall k :: k in r ==> LowerCase(k)
    decreases |lines|
  {
    if lines == [] then map[]
    else
      var h := HeaderMap(lines[..|lines| - 1]);
      var line := lines[|lines| - 1];
      if IsHeaderLine(line) then h[HeaderKey(line) := HeaderValue(line)] else h
  }

  /** Line `j` is a header line and no later header line has its key. */
  predicate LastWithKey(lines: seq<string>, j: int)
    requires 0 <= j < |lines|
  {
    IsHeaderLine(lines[j]) &&
    forall j2 :: j < j2 < |lines| && IsHeaderLine(lines[j2]) ==> HeaderKey(lines[j2]) != HeaderKey(lines[j])
  }

  /** The dictionary has a key exactly when some header line has it. */
  lemma {:induction false} HeaderMapKeys(lines: seq<string>, k: string)
    ensures k in HeaderMap(lines) <==>
      exists j :: 0 <= j < |lines| && IsHeaderLine(lines[j]) && HeaderKey(lines[j]) == k
    decreases |lines|
  {
    if lines != [] {
      var n := |lines| - 1;
      var init := lines[..n];
      HeaderMapKeys(init, k);
      if k in HeaderMap(init) {
        var j :| 0 <= j < n && IsHeaderLine(init[j]) && HeaderKey(init[j]) == k;
        assert lines[j] == init[j];
      }
      if j :| 0 <= j < n && IsHeaderLine(lines[j]) && HeaderKey(lines[j]) == k {
        assert init[j] == lines[j];
      }
    }
  }

  /** The value of a key comes from the last header line that has it. */
  lemma {:induction false} HeaderMapLastWins(lines: seq<string>, j: nat)
    requires j < |lines| && LastWithKey(lines, j)
    ensures HeaderKey(lines[j]) in HeaderMap(lines)
    ensures HeaderMap(lines)[HeaderKey(lines[j])] == HeaderValue(lines[j])
    decreases |lines|
  {
    var n := |lines| - 1;
    if j < n {
      var init := lines[..n];
      assert init[j] == lines[j];
      assert LastWithKey(init, j) by {
        forall j2 | j < j2 < n && IsHeaderLine(init[j2])
          ensures HeaderKey(init[j2]) != HeaderKey(init[j])
        {
          assert init[j2] == lines[j2];
        }
      }
      HeaderMapLastWins(init, j);
    }
  }

  /** `parse_headers`: every line after the request line, in order. */
  method ParseHeaders(req: string) returns (headers: map<string, string>)
    ensures headers == HeaderMap(Split(req, "\r\n")[1..])
  {
    var lines := Split(req, "\r\n")[1..];
    headers := map[];
    var i := 0;
    while i < |lines|
      invariant 0 <= i <= |lines|
      invariant headers == HeaderMap(lines[..i])
    {
      var line := lines[i];
      assert lines[..i + 1][..i] == lines[..i];
      if Contains(line, ": ") {
        var k := Find(line, ": ").value;
        headers := headers[Lower(line[..k]) := line[k + 2..]];
      }
      i := i + 1;
    }
    assert lines[..i] == lines;
  }

  /** A cookie pair names `name`: it holds "=" and its stripped text starts `name=`. */
  function CookieName(pair: string): string
    requires Contains(pair, "=")
  {
    StripKeeps(pair, '=');
    var t := Strip(pair);
    t[..Find(t, "=").value]
  }

  function CookieValue(pair: string): string
    requires Contains(pair, "=")
  {
    StripKeeps(pair, '=');
    var t := Strip(pair);
    t[Find(t, "=").value + 1..]
  }

  predicate NamesCookie(pair: string, name: string) {
    Contains(pair, "=") && CookieName(pair) == name
  }

  /** The search loop of `get_cookie`: the value of the first pair that names `name`. */
  function FirstCookie(pairs: seq<string>, name: string): Option<string>
    decreases |pairs|
  {
    if pairs == [] then None
    else if NamesCookie(pairs[0], name) then Some(CookieValue(pairs[0]))
    else FirstCookie(pairs[1..], name)
  }

  /** The search finds the first matching pair, and nothing when no pair matches. */
  lemma {:induction false} FirstCookieMeaning(pairs: seq<string>, name: string)
    ensures FirstCookie(pairs, name).None? <==> forall j :: 0 <= j < |pairs| ==> !NamesCookie(pairs[j], name)
    ensures FirstCookie(pairs, name).Some? ==>
      exists j :: 0 <= j < |pairs| && NamesCookie(pairs[j], name) &&
        FirstCookie(pairs, name).value == CookieValue(pairs[j]) &&
        forall j2 :: 0 <= j2 < j ==> !NamesCookie(pairs[j2], name)
    decreases |pairs|
  {
    if pairs != [] && !NamesCookie(pairs[0], name) {
      var rest := pairs[1..];
      FirstCookieMeaning(rest, name);
      assert forall j :: 0 < j < |pairs| ==> pairs[j] == rest[j - 1];
      if FirstCookie(rest, name).Some? {
        var j :| 0 <= j < |rest| && NamesCookie(rest[j], name) &&
          FirstCookie(rest, name).value == CookieValue(rest[j]) &&
          forall j2 :: 0 <= j2 < j ==> !NamesCookie(rest[j2], name);
        assert NamesCookie(pairs[j + 1], name);
        assert forall j2 :: 0 <= j2 < j + 1 ==> !NamesCookie(pairs[j2], name) by {
          forall j2 | 0 < j2 < j + 1 ensures !NamesCookie(pairs[j2], name) {
            assert pairs[j2] == rest[j2 - 1];
          }
        }
      } else {
        forall j | 0 <= j < |pairs| ensures !NamesCookie(pairs[j], name) {
          if j > 0 { assert pairs[j] == rest[j - 1]; }
        }
      }
    }
  }

  /**
   * `get_cookie`: the `cookie` header (empty when absent) split at ";". A
   * value is found only in a pair of that header naming `name`.
   */
  function GetCookie(headers: map<string, string>, name: string): (r: Option<string>)
    ensures "cookie" !in headers ==> r.None?
    ensures r.Some? ==>
      "cookie" in headers &&
      exists pair :: pair in Split(headers["cookie"], ";") && NamesCookie(pair, name) && r.value == CookieValue(pair)
  {
    var cookies := if "cookie" in headers then headers["cookie"] else "";
    var pairs := Split(cookies, ";");
    FirstCookieMeaning(pairs, name);
    assert "cookie" !in headers ==> pairs == [""] && !Contains("", "=");
    FirstCookie(pairs, name)
  }

  /** The login cookie: the token, and a week's lifetime when `remember` is set. */
  function SessionCookie(token: string, remember: bool): (r: string)
    ensures StartsWith(r, "session=" + token + "; Path=/")
    ensures remember <==> EndsWith(r, "; Max-Age=604800")
  {
    var r := "session=" + token + "; Path=/" + (if remember then "; Max-Age=604800" else "");
    assert !remember ==> r[|r| - 1] == '/';
    r
  }

  /**
   * A token free of ";" and whitespace, sent back as `Cookie: session=<token>`,
   * is what `get_cookie(headers, "session")` returns. It may hold "=": the
   * pair splits at its first one, which ends the name "session".
   */
  lemma SessionCookieRoundTrip(token: string)
    requires forall i :: 0 <= i < |token| ==> token[i] != ';' && !IsSpace(token[i])
    ensures GetCookie(map["cookie" := "session=" + token], "session") == Some(token)
  {
    var s := "session=" + token;
    ContainsChar(s, ';');
    SplitNone(s, ";");
    assert Split(s, ";") == [s];
    StripNoop(s);
    assert OccursAt(s, "=", 7);
    forall j | 0 <= j < 7 ensures !OccursAt(s, "=", j) {
      assert s[j..j + 1] == [s[j]];
    }
    FindIs(s, "=", 7);
    assert s[..7] == "session";
    assert s[8..] == token;
  }

  /** Authenticated: a valid session cookie, or the device-address allowlist (`auto_authenticate`). */
  predicate Authenticated(sec: Auth.Record, headers: map<string, string>, autoAuthenticated: bool)
    ensures autoAuthenticated ==> Authenticated(sec, headers, autoAuthenticated)
    ensures Auth.SessionValid(sec, GetCookie(headers, "session")) ==> Authenticated(sec, headers, autoAuthenticated)
    ensures !autoAuthenticated && !Auth.SessionValid(sec, GetCookie(headers, "session")) ==>
      !Authenticated(sec, headers, autoAuthenticated)
    ensures !autoAuthenticated && "cookie" !in headers ==> !Authenticated(sec, headers, autoAuthenticated)
    ensures !autoAuthenticated && "session_token" !in sec ==> !Authenticated(sec, headers, autoAuthenticated)
  {
    Auth.SessionValid(sec, GetCookie(headers, "session")) || autoAuthenticated
  }

  /** `get_mime_type`: the content type chosen from the path's extension. */
  function MimeType(path: string): (r: string)
    ensures r == "text/html" <==>
      !(EndsWith(path, ".css") || EndsWith(path, ".js") || EndsWith(path, ".ico") ||
        EndsWith(path, ".gif") || EndsWith(path, ".png") || EndsWith(path, ".json"))
  {
    if EndsWith(path, ".css") then "text/css"
    else if EndsWith(path, ".js") then "application/javascript"
    else if EndsWith(path, ".ico") then "image/x-icon"
    else if EndsWith(path, ".gif") then "image/gif"
    else if EndsWith(path, ".png") then "image/png"
    else if EndsWith(path, ".json") then "application/json"
    else "text/html"
  }

  /** A dot-led suffix cannot reach back into a prefix that has no dot. */
  lemma EndsWithUnderPrefix(prefix: string, path: string, ext: string)
    requires |ext| > 0 && ext[0] == '.'
    requires forall i :: 0 <= i < |prefix| ==> prefix[i] != '.'
    ensures EndsWith(prefix + path, ext) <==> EndsWith(path, ext)
  {
    var s := prefix + path;
    if |ext| <= |path| {
      assert s[|s| - |ext|..] == path[|path| - |ext|..];
    }
  }

  /** Rewriting a path under "/portal" keeps its content type. */
  lemma MimeTypeUnderPortal(path: string)
    ensures MimeType("/portal" + path) == MimeType(path)
  {
    var p := "/portal";
    EndsWithUnderPrefix(p, path, ".css");
    EndsWithUnderPrefix(p, path, ".js");
    EndsWithUnderPrefix(p, path, ".ico");
    EndsWithUnderPrefix(p, path, ".gif");
    EndsWithUnderPrefix(p, path, ".png");
    EndsWithUnderPrefix(p, path, ".json");
  }

  /** What the server does with a path that no API route claims. */
  datatype StaticAction = Redirect | Serve(file: string)

  /**
   * Unauthenticated requests for anything but "/" and "/assets..." are sent a
   * 302 to "/"; everything else is served from under "/portal", with "/"
   * standing for the portal's index page.
   */
  function StaticFallback(path: string, authenticated: bool): (r: StaticAction)
    ensures r.Redirect? <==> path != "/" && !authenticated && !StartsWith(path, "/assets")
    ensures r.Serve? ==> StartsWith(r.file, "/portal")
    ensures r.Serve? && path != "/" ==> r.file == "/portal" + path
    ensures path == "/" ==> r == Serve("/portal/index.html")
  {
    if path != "/" && !authenticated && !StartsWith(path, "/assets") then Redirect
    else if path == "/" then Serve("/portal/index.html")
    else Serve("/portal" + path)
  }

  /** Without a session, only the index page and files under "/portal/assets" are served. */
  lemma UnauthenticatedConfined(path: string)
    ensures StaticFallback(path, false).Serve? ==>
      StaticFallback(path, false).file == "/portal/index.html" ||
      StartsWith(StaticFallback(path, false).file, "/portal/assets")
  {
    if StaticFallback(path, false).Serve? && path != "/" {
      var f := "/portal" + path;
      assert f[..14] == "/portal" + path[..7];
    }
  }

  /**
   * A request that is not allowlisted and carries a session cookie other than
   * the stored token is sent to "/" for every path but "/" and "/assets...".
   */
  lemma StrangerRedirected(sec: Auth.Record, token: string, path: string)
    requires forall i :: 0 <= i < |token| ==> token[i] != ';' && !IsSpace(token[i])
    requires "session_token" in sec ==> sec["session_token"] != token
    requires path != "/" && !StartsWith(path, "/assets")
    ensures StaticFallback(path, Authenticated(sec, map["cookie" := "session=" + token], false)) == Redirect
  {
    SessionCookieRoundTrip(token);
  }

  /** Any path under "/assets" is served from "/portal" + path without a session. */
  lemma AssetsServedUnauthenticated(path: string)
    requires StartsWith(path, "/assets")
    ensures StaticFallback(path, false) == Serve("/portal" + path)
  {
    assert path != "/" by {
      assert path[..7] == "/assets";
    }
  }

  /**
   * The assets check is on the text of the path only: a path that climbs out
   * with ".." segments still passes it.
   */
  lemma AssetsCheckIsTextual()
    ensures StaticFallback("/assets/../../logging/security.json", false) ==
      Serve("/portal/assets/../../logging/security.json")
  {
    var path := "/assets/../../logging/security.json";
    assert path[..7] == "/assets";
    assert path != "/";
    assert "/portal" + path == "/portal/assets/../../logging/security.json";
  }
}

=== FILE: numerals.dfy ===
/**
 * Decimal numerals: rendering a number (`str(n)`, `n.toString()`,
 * `padStart(2, '0')`) and the two parsers the system relies on, Python's
 * `int(s)` on the device and JavaScript's `parseInt(s, 10)` in the portal.
 */
module Numerals {
  import opened Wrappers
  import opened Text

  predicate IsDigit(c: char) {
    '0' <= c <= '9'
  }

  predicate AllDigits(s: string) {
    forall i :: 0 <= i < |s| ==> IsDigit(s[i])
  }

  function DigitValue(c: char): nat
    requires IsDigit(c)
  {
    c as int - '0' as int
  }

  function DigitChar(d: nat): (c: char)
    requires d < 10
    ensures IsDigit(c) && DigitValue(c) == d
  {
    ('0' as int + d) as char
  }

  /** The number a string of decimal digits denotes (leading zeros allowed). */
  function ValueOf(ds: string): nat
    requires AllDigits(ds)
    decreases |ds|
  {
    if ds == [] then 0 else ValueOf(ds[..|ds| - 1]) * 10 + DigitValue(ds[|ds| - 1])
  }

  /** The canonical decimal numeral of `n`: digits only, no leading zero, denoting `n`. */
  function NatToString(n: nat): (r: string)
    ensures |r| >= 1 && AllDigits(r) && ValueOf(r) == n
    ensures r[0] == '0' ==> r == "0"
    decreases n
  {
    if n < 10 then [DigitChar(n)]
    else
      var r := NatToString(n / 10) + [DigitChar(n % 10)];
      assert r[..|r| - 1] == NatToString(n / 10);
      r
  }

  /** JavaScript's `${n}` for an integer. */
  function IntToString(n: int): string {
    if n < 0 then "-" + NatToString(-n) else NatToString(n)
  }

  /** JavaScript's `s.padStart(2, '0')`. */
  function PadStart2(s: string): (r: string)
    ensures |r| == if |s| < 2 then 2 else |s|
  {
    if |s| >= 2 then s else if |s| == 1 then "0" + s else "00"
  }

  /** Leading zeros do not change the value of a numeral. */
  lemma {:induction false} ValueOfLeadingZero(ds: string)
    requires AllDigits(ds)
    ensures AllDigits("0" + ds) && ValueOf("0" + ds) == ValueOf(ds)
    decreases |ds|
  {
    var z := "0" + ds;
    if ds != [] {
      assert z[..|z| - 1] == "0" + ds[..|ds| - 1];
      ValueOfLeadingZero(ds[..|ds| - 1]);
    }
  }

  /** A minute below 60, padded to two places, is two digits that still denote it. */
  lemma PaddedMinute(m: nat)
    requires m < 60
    ensures |PadStart2(NatToString(m))| == 2
    ensures AllDigits(PadStart2(NatToString(m))) && ValueOf(PadStart2(NatToString(m))) == m
  {
    var s := NatToString(m);
    if m < 10 {
      assert PadStart2(s) == "0" + s;
      ValueOfLeadingZero(s);
    }
  }

  /** The run of digits at the front of `s`. */
  function DigitPrefix(s: string): (r: string)
    ensures AllDigits(r) && |r| <= |s| && r == s[..|r|]
    ensures |r| < |s| ==> !IsDigit(s[|r|])
    decreases |s|
  {
    if |s| > 0 && IsDigit(s[0]) then [s[0]] + DigitPrefix(s[1..]) else []
  }

  function SignOf(t: string): int {
    if |t| > 0 && t[0] == '-' then -1 else 1
  }

  function Unsigned(t: string): string {
    if |t| > 0 && (t[0] == '-' || t[0] == '+') then t[1..] else t
  }

  /**
   * Python's `int(s)`: surrounding whitespace, an optional sign, then one or
   * more decimal digits and nothing else; anything else raises (None).
   */
  function PyInt(s: string): (r: Option<int>)
    ensures r.Some? <==> |Unsigned(Strip(s))| > 0 && AllDigits(Unsigned(Strip(s)))
  {
    var t := Strip(s);
    var body := Unsigned(t);
    if |body| > 0 && AllDigits(body) then Some(SignOf(t) * ValueOf(body)) else None
  }

  /** The result of JavaScript's `parseInt`: an integer or NaN. */
  datatype JsNum = Num(n: int) | NaN

  /**
   * JavaScript's `parseInt(s, 10)`: leading whitespace, an optional sign, then
   * the longest run of digits; NaN when there is no digit.
   */
  function JsParseInt(s: string): (r: JsNum)
    ensures r.NaN? <==> DigitPrefix(Unsigned(TrimStart(s))) == []
  {
    var t := TrimStart(s);
    var ds := DigitPrefix(Unsigned(t));
    if ds == [] then NaN else Num(SignOf(t) * ValueOf(ds))
  }

  /** A plain numeral reads back as its value under `int`. */
  lemma PyIntOfNumeral(ds: string)
    requires |ds| > 0 && AllDigits(ds)
    ensures PyInt(ds) == Some(ValueOf(ds))
  {
    assert !IsSpace(ds[0]) && !IsSpace(ds[|ds| - 1]);
    StripNoop(ds);
  }

  lemma {:induction false} DigitPrefixOfDigits(ds: string)
    requires AllDigits(ds)
    ensures DigitPrefix(ds) == ds
    decreases |ds|
  {
    if ds != [] {
      DigitPrefixOfDigits(ds[1..]);
    }
  }

  /** A plain numeral reads back as its value under `parseInt`. */
  lemma JsParseIntOfNumeral(ds: string)
    requires |ds| > 0 && AllDigits(ds)
    ensures JsParseInt(ds) == Num(ValueOf(ds))
  {
    assert !IsSpace(ds[0]);
    assert TrimStart(ds) == ds;
    assert Unsigned(ds) == ds;
    DigitPrefixOfDigits(ds);
    assert SignOf(ds) == 1;
  }
}

=== FILE: portal.dfy ===
/**
 * The scheduling page of the web portal: showing a stored minute-of-day as a
 * 12-hour time, the dropdown options, filling a day's slots from the stored
 * config, and gathering the slots back into "H:MM" strings for the device.
 */
module Portal {
  import opened Wrappers
  import opened Text
  import opened Numerals

  /** The `{time, ampm}` object of `minsToTime`. */
  datatype ClockTime = ClockTime(time: string, ampm: string)

  /** The 12-hour clock hour of a minute-of-day: 12 for the hours 0 and 12. */
  function Hour12(mins: nat): (h: nat)
    ensures 1 <= h <= 12 && h % 12 == (mins / 60) % 12
  {
    var h12 := (mins / 60) % 12;
    if h12 == 0 then 12 else h12
  }

  /** "h:mm" for an hour and a minute. */
  function ClockLabel(h: nat, m: nat): string {
    NatToString(h) + ":" + PadStart2(NatToString(m))
  }

  /**
   * `minsToTime(mins)`: the 12-hour hour (1 to 12) and the minute padded to
   * two places, with "PM" exactly from minute 720 on.
   */
  function MinsToTime(mins: nat): (r: ClockTime)
    ensures r.time == ClockLabel(Hour12(mins), mins % 60)
    ensures r.ampm == "PM" <==> mins >= 720
    ensures r.ampm == "AM" <==> mins < 720
  {
    var h24 := mins / 60;
    var m := mins % 60;
    var ampm := if h24 >= 12 then "PM" else "AM";
    ClockTime(ClockLabel(Hour12(mins), m), ampm)
  }

  /**
   * The hour rule of `gatherSchedule`: PM adds 12 except to 12, AM turns 12
   * into 0, anything else (and NaN) is kept.
   */
  function To24(h: JsNum, ampm: string): (r: JsNum)
    ensures ampm == "PM" && h.Num? && h.n != 12 ==> r == Num(h.n + 12)
    ensures ampm == "AM" && h == Num(12) ==> r == Num(0)
    ensures !(ampm == "PM" && h.Num? && h.n != 12) && !(ampm == "AM" && h == Num(12)) ==> r == h
  {
    var h1 := if ampm == "PM" && h != Num(12) then (if h.Num? then Num(h.n + 12) else NaN) else h;
    if ampm == "AM" && h1 == Num(12) then Num(0) else h1
  }

  /** On clock hours 1 to 12 the rule is a bijection onto the hours 0 to 23. */
  lemma To24Bijective(h1: nat, a1: string, h2: nat, a2: string)
    requires 1 <= h1 <= 12 && 1 <= h2 <= 12
    requires a1 in {"AM", "PM"} && a2 in {"AM", "PM"}
    ensures To24(Num(h1), a1).Num? && 0 <= To24(Num(h1), a1).n < 24
    ensures To24(Num(h1), a1) == To24(Num(h2), a2) ==> h1 == h2 && a1 == a2
  {
  }

  /** The rule undoes `minsToTime`'s hour: it gives back the 24-hour hour. */
  lemma To24Inverts(mins: nat)
    requires mins < 1440
    ensures To24(Num(Hour12(mins)), MinsToTime(mins).ampm) == Num(mins / 60)
  {
  }

  /** JavaScript's `${x}` for a `parseInt` result. */
  function Render(x: JsNum): string {
    match x
    case Num(n) => IntToString(n)
    case NaN => "NaN"
  }

  /**
   * One selected slot in `gatherSchedule`: split at ":", `parseInt` both
   * parts, apply the hour rule, print "h:mm". None when the value has no ":"
   * (the minute is then `undefined` and `m.toString()` throws).
   */
  function FormatSlot(timeVal: string, ampm: string): Option<string> {
    var parts := Split(timeVal, ":");
    if |parts| < 2 then None
    else
      var h := To24(JsParseInt(parts[0]), ampm);
      var m := JsParseInt(parts[1]);
      Some(Render(h) + ":" + PadStart2(Render(m)))
  }

  /** A slot throws exactly when its value holds no ":"; otherwise it prints a string. */
  lemma FormatSlotThrows(timeVal: string, ampm: string)
    ensures FormatSlot(timeVal, ampm).None? <==> !Contains(timeVal, ":")
  {
    SplitOne(timeVal, ":");
  }

  /** A time slot: the values of its time and AM/PM dropdowns. */
  datatype Slot = Slot(time: string, ampm: string)

  /** The slots a user picked a time in. */
  function Chosen(slots: seq<Slot>): (r: seq<Slot>)
    ensures |r| <= |slots|
    decreases |slots|
  {
    if slots == [] then []
    else
      var last := slots[|slots| - 1];
      Chosen(slots[..|slots| - 1]) + (if last.time != "None" then [last] else [])
  }

  /**
   * The inner `slots.forEach` of `gatherSchedule`, one slot at a time with
   * `format`: "None" slots are skipped, and the first slot that throws
   * (None) ends the whole gather.
   */
  function GatherSlots(format: Slot -> Option<string>, slots: seq<Slot>): Option<seq<string>>
    decreases |slots|
  {
    if slots == [] then Some([])
    else
      var last := slots[|slots| - 1];
      match GatherSlots(format, slots[..|slots| - 1])
      case None => None
      case Some(times) =>
        if last.time == "None" then Some(times)
        else match format(last)
          case None => None
          case Some(t) => Some(times + [t])
  }

  /** The result of one slot, as `gatherSchedule` formats it. */
  function Formatted(slot: Slot): Option<string> {
    FormatSlot(slot.time, slot.ampm)
  }

  /** One day of `gatherSchedule`. */
  function GatherDay(slots: seq<Slot>): Option<seq<string>> {
    GatherSlots(Formatted, slots)
  }

  /** One more slot: skipped when "None", else its formatted string is appended or the gather fails. */
  lemma GatherSlotsStep(format: Slot -> Option<string>, slots: seq<Slot>, j: nat)
    requires j < |slots|
    ensures GatherSlots(format, slots[..j + 1]) ==
      match GatherSlots(format, slots[..j])
      case None => None
      case Some(times) =>
        if slots[j].time == "None" then Some(times)
        else if format(slots[j]).None? then None
        else Some(times + [format(slots[j]).value])
  {
    assert slots[..j + 1][..j] == slots[..j];
  }

  /** The chosen slots are exactly the slots whose time is not "None". */
  lemma {:induction false} ChosenMembers(slots: seq<Slot>)
    ensures forall x :: x in Chosen(slots) <==> x in slots && x.time != "None"
    decreases |slots|
  {
    if slots != [] {
      var init := slots[..|slots| - 1];
      ChosenMembers(init);
      assert slots == init + [slots[|slots| - 1]];
    }
  }

  /** Chosen grows by the last slot exactly when that slot is chosen. */
  lemma ChosenSnoc(init: seq<Slot>, last: Slot)
    ensures Chosen(init + [last]) == Chosen(init) + (if last.time != "None" then [last] else [])
  {
    assert (init + [last])[..|init|] == init;
  }

  /** A day gathers exactly when every chosen slot formats. */
  lemma {:induction false} GatherSlotsSucceed(format: Slot -> Option<string>, slots: seq<Slot>)
    ensures GatherSlots(format, slots).Some? <==> forall k :: 0 <= k < |Chosen(slots)| ==> format(Chosen(slots)[k]).Some?
    decreases |slots|
  {
    if slots != [] {
      var init := slots[..|slots| - 1];
      var last := slots[|slots| - 1];
      GatherSlotsSucceed(format, init);
      assert slots == init + [last];
      ChosenSnoc(init, last);
      var ci := Chosen(init);
      var c := Chosen(slots);
      if last.time == "None" {
        assert c == ci;
      } else {
        assert c == ci + [last];
        if GatherSlots(format, init).None? {
          var k :| 0 <= k < |ci| && format(ci[k]).None?;
          assert c[k] == ci[k];
        } else if format(last).None? {
          assert c[|ci|] == last;
        } else {
          forall k | 0 <= k < |c|
            ensures format(c[k]).Some?
          {
            if k < |ci| {
              assert c[k] == ci[k];
            }
          }
        }
      }
    }
  }

  /** A gathered day holds the chosen slots' strings in slot order. */
  lemma {:induction false} GatherSlotsValues(format: Slot -> Option<string>, slots: seq<Slot>)
    requires GatherSlots(format, slots).Some?
    ensures |GatherSlots(format, slots).value| == |Chosen(slots)|
    ensures forall k :: 0 <= k < |Chosen(slots)| ==> format(Chosen(slots)[k]) == Some(GatherSlots(format, slots).value[k])
    decreases |slots|
  {
    if slots != [] {
      var init := slots[..|slots| - 1];
      var last := slots[|slots| - 1];
      assert slots == init + [last];
      ChosenSnoc(init, last);
      GatherSlotsValues(format, init);
      var ci := Chosen(init);
      var c := Chosen(slots);
      var ri := GatherSlots(format, init).value;
      var r := GatherSlots(format, slots).value;
      if last.time == "None" {
        assert c == ci && r == ri;
      } else {
        assert c == ci + [last];
        assert r == ri + [format(last).value];
        forall k | 0 <= k < |c|
          ensures format(c[k]) == Some(r[k])
        {
          if k < |ci| {
            assert c[k] == ci[k] && r[k] == ri[k];
          }
        }
      }
    }
  }

  /** The day keys of the portal, in its order (Sunday first). */
  const PortalDays: seq<string> := ["sun", "mon", "tue", "wed", "thu", "fri", "sat"]

  /** A day's part of the form: its checkbox and its slots. A day missing from the map has no checkbox. */
  datatype DayForm = DayForm(checked: bool, slots: seq<Slot>)

  /**
   * `gatherSchedule` over `days`, gathering each day's slots with `gather`: unchecked days and days with no chosen
   * time are left out; None when a slot throws.
   */
  function GatherEach(gather: seq<Slot> -> Option<seq<string>>, form: map<string, DayForm>, days: seq<string>)
    : Option<map<string, seq<string>>>
    decreases |days|
  {
    if days == [] then Some(map[])
    else
      var day := days[|days| - 1];
      match GatherEach(gather, form, days[..|days| - 1])
      case None => None
      case Some(out) =>
        if day !in form || !form[day].checked then Some(out)
        else match gather(form[day].slots)
          case None => None
          case Some(times) => if |times| > 0 then Some(out[day := times]) else Some(out)
  }

  /**
   * What `gatherSchedule` sends: exactly the checked days of `days` with at
   * least one chosen time, each with its gathered strings.
   */
  lemma {:induction false} GatherEachMeaning(gather: seq<Slot> -> Option<seq<string>>,
                                            form: map<string, DayForm>, days: seq<string>)
    requires GatherEach(gather, form, days).Some?
    ensures forall d :: d in GatherEach(gather, form, days).value <==>
      d in days && d in form && form[d].checked && gather(form[d].slots).Some? &&
      |gather(form[d].slots).value| > 0
    ensures forall d :: d in GatherEach(gather, form, days).value ==>
      GatherEach(gather, form, days).value[d] == gather(form[d].slots).value
    decreases |days|
  {
    if days != [] {
      var init := days[..|days| - 1];
      var day := days[|days| - 1];
      GatherEachMeaning(gather, form, init);
      assert forall d :: d in days <==> d in init || d == day;
      if day in form && form[day].checked && gather(form[day].slots).Some? {
        GatherEachSucceed(gather, form, init);
      }
    }
  }

  /** The gather throws exactly when one of the checked days throws. */
  lemma {:induction false} GatherEachSucceed(gather: seq<Slot> -> Option<seq<string>>,
                                            form: map<string, DayForm>, days: seq<string>)
    ensures GatherEach(gather, form, days).Some? <==>
      forall d :: d in days && d in form && form[d].checked ==> gather(form[d].slots).Some?
    decreases |days|
  {
    if days != [] {
      var init := days[..|days| - 1];
      GatherEachSucceed(gather, form, init);
      assert forall d :: d in days <==> d in init || d == days[|days| - 1];
    }
  }

  /** A form whose checked days all gather, and whose non-empty ones are `expected`, gathers to `expected`. */
  lemma GatherEachIs(gather: seq<Slot> -> Option<seq<string>>, form: map<string, DayForm>,
                                      days: seq<string>, expected: map<string, seq<string>>)
    requires forall d :: d in days && d in form && form[d].checked ==> gather(form[d].slots).Some?
    requires forall d :: d in expected <==>
      d in days && d in form && form[d].checked && gather(form[d].slots).Some? &&
      |gather(form[d].slots).value| > 0
    requires forall d :: d in expected ==> expected[d] == gather(form[d].slots).value
    ensures GatherEach(gather, form, days) == Some(expected)
  {
    GatherEachSucceed(gather, form, days);
    GatherEachMeaning(gather, form, days);
    var got := GatherEach(gather, form, days).value;
    assert got.Keys == expected.Keys;
    assert forall d :: d in got ==> got[d] == expected[d];
    assert got == expected;
  }

  /**
   * `gatherSchedule` over `days`: it throws exactly when a checked day has a
   * slot that throws, and otherwise sends the checked days with a chosen time.
   */
  function GatherDays(form: map<string, DayForm>, days: seq<string>): (r: Option<map<string, seq<string>>>)
    ensures r.Some? <==> forall d :: d in days && d in form && form[d].checked ==> GatherDay(form[d].slots).Some?
    ensures r.Some? ==> forall d :: d in r.value ==>
      d in days && d in form && form[d].checked && r.value[d] == GatherDay(form[d].slots).value && |r.value[d]| > 0
  {
    GatherEachSucceed(GatherDay, form, days);
    assert GatherEach(GatherDay, form, days).Some? ==> forall d :: d in GatherEach(GatherDay, form, days).value ==>
      d in days && d in form && form[d].checked && |GatherEach(GatherDay, form, days).value[d]| > 0 &&
      GatherEach(GatherDay, form, days).value[d] == GatherDay(form[d].slots).value
    by {
      if GatherEach(GatherDay, form, days).Some? {
        GatherEachMeaning(GatherDay, form, days);
      }
    }
    GatherEach(GatherDay, form, days)
  }

  /**
   * What `gatherSchedule` over `days` sends, when it does not throw: exactly
   * the checked days with at least one chosen time, each with its strings.
   */
  lemma GatherDaysMeaning(form: map<string, DayForm>, days: seq<string>)
    requires GatherDays(form, days).Some?
    ensures forall d :: d in GatherDays(form, days).value <==>
      d in days && d in form && form[d].checked && GatherDay(form[d].slots).Some? &&
      |GatherDay(form[d].slots).value| > 0
  {
    GatherEachMeaning(GatherDay, form, days);
  }

  /** `gatherSchedule`: the loop over the seven days. */
  method GatherSchedule(form: map<string, DayForm>) returns (out: Option<map<string, seq<string>>>)
    ensures out == GatherDays(form, PortalDays)
  {
    var result: map<string, seq<string>> := map[];
    var i := 0;
    while i < |PortalDays|
      invariant 0 <= i <= |PortalDays|
      invariant GatherEach(GatherDay, form, PortalDays[..i]) == Some(result)
    {
      var day := PortalDays[i];
      GatherEachStep(GatherDay, form, PortalDays, i);
      if day in form && form[day].checked {
        var times := GatherDaySlots(Formatted, form[day].slots);
        if times.None? {
          GatherEachFailureSticks(GatherDay, form, PortalDays, i + 1);
          return None;
        }
        if |times.value| > 0 {
          result := result[day := times.value];
        }
      }
      i := i + 1;
    }
    assert PortalDays[..i] == PortalDays;
    out := Some(result);
  }

  /**
   * The inner loop of `gatherSchedule`, over one day's slots, with the
   * per-slot formatting passed in as `format` (the caller passes `Formatted`).
   */
  method GatherDaySlots(format: Slot -> Option<string>, slots: seq<Slot>) returns (out: Option<seq<string>>)
    ensures out == GatherSlots(format, slots)
  {
    var times: seq<string> := [];
    var j := 0;
    while j < |slots|
      invariant 0 <= j <= |slots|
      invariant GatherSlots(format, slots[..j]) == Some(times)
    {
      GatherSlotsStep(format, slots, j);
      var slot := slots[j];
      if slot.time != "None" {
        var t := format(slot);
        if t.None? {
          GatherSlotsFailureSticks(format, slots, j + 1);
          return None;
        }
        times := times + [t.value];
      }
      j := j + 1;
    }
    assert slots[..j] == slots;
    out := Some(times);
  }

  /** Once a slot throws, the rest of the day cannot undo it. */
  lemma {:induction false} GatherSlotsFailureSticks(format: Slot -> Option<string>, slots: seq<Slot>, i: nat)
    requires i <= |slots| && GatherSlots(format, slots[..i]).None?
    ensures GatherSlots(format, slots).None?
    decreases |slots| - i
  {
    if i < |slots| {
      assert slots[..i + 1][..i] == slots[..i];
      GatherSlotsFailureSticks(format, slots, i + 1);
    } else {
      assert slots[..i] == slots;
    }
  }

  /** One more day: unchecked days are skipped, else its gathered times are added or the gather fails. */
  lemma GatherEachStep(gather: seq<Slot> -> Option<seq<string>>, form: map<string, DayForm>, days: seq<string>, i: nat)
    requires i < |days|
    ensures GatherEach(gather, form, days[..i + 1]) ==
      match GatherEach(gather, form, days[..i])
      case None => None
      case Some(out) =>
        if days[i] !in form || !form[days[i]].checked then Some(out)
        else match gather(form[days[i]].slots)
          case None => None
          case Some(times) => if |times| > 0 then Some(out[days[i] := times]) else Some(out)
  {
    assert days[..i + 1][..i] == days[..i];
  }

  /** Once a day throws, the later days cannot undo it. */
  lemma {:induction false} GatherEachFailureSticks(gather: seq<Slot> -> Option<seq<string>>, form: map<string, DayForm>,
                                      days: seq<string>, i: nat)
    requires i <= |days| && GatherEach(gather, form, days[..i]).None?
    ensures GatherEach(gather, form, days).None?
    decreases |days| - i
  {
    if i < |days| {
      assert days[..i + 1][..i] == days[..i];
      GatherEachFailureSticks(gather, form, days, i + 1);
    } else {
      assert days[..i] == days;
    }
  }

  /** The label of a dropdown option: "00" for the full hour, else the padded minute. */
  function OptionLabel(h: nat, m: nat): string {
    NatToString(h) + ":" + (if m == 0 then "00" else PadStart2(NatToString(m)))
  }

  /** The option for hour `h` and quarter `q` (minute `15 * q`). */
  function QuarterLabel(h: nat, q: nat): string {
    OptionLabel(h, 15 * q)
  }

  /** The 48 time options, hour by hour and quarter by quarter from 1:00. */
  function TimeOptions(): (r: seq<string>)
    ensures |r| == 48
  {
    seq(48, k requires 0 <= k < 48 => QuarterLabel(k / 4 + 1, k % 4))
  }

  /** The options up to hour `h`, quarter `q` extend by that quarter's label. */
  lemma TimeOptionsGrow(h: nat, q: nat)
    requires 1 <= h <= 12 && q < 4
    ensures TimeOptions()[..4 * (h - 1) + q + 1] == TimeOptions()[..4 * (h - 1) + q] + [OptionLabel(h, 15 * q)]
  {
    var n := 4 * (h - 1) + q;
    var all := TimeOptions();
    assert all[..n + 1] == all[..n] + [all[n]];
    assert n / 4 + 1 == h && n % 4 == q;
    assert all[n] == QuarterLabel(h, q);
  }

  /**
   * `populateTimeOptions`: "None", then the 48 times 1:00, 1:15, ... 12:45,
   * hour by hour and quarter by quarter.
   */
  method PopulateTimeOptions() returns (options: seq<string>)
    ensures options == ["None"] + TimeOptions()
  {
    options := ["None"];
    var h := 1;
    while h <= 12
      invariant 1 <= h <= 13
      invariant options == ["None"] + TimeOptions()[..4 * (h - 1)]
    {
      var m := 0;
      ghost var quarter := 0;
      while m < 60
        invariant 0 <= quarter <= 4 && m == 15 * quarter
        invariant options == ["None"] + TimeOptions()[..4 * (h - 1) + quarter]
      {
        var mm := if m == 0 then "00" else PadStart2(NatToString(m));
        TimeOptionsGrow(h, quarter);
        options := options + [NatToString(h) + ":" + mm];
        m := m + 15;
        quarter := quarter + 1;
      }
      h := h + 1;
    }
  }

  /**
   * Every quarter-hour of the day, shown by `minsToTime`, is one of the
   * options, so `loadConfig` can select it.
   */
  lemma QuarterHourListed(mins: nat)
    requires mins < 1440 && mins % 15 == 0
    ensures 0 <= 4 * (Hour12(mins) - 1) + (mins % 60) / 15 < 48
    ensures MinsToTime(mins).time == TimeOptions()[4 * (Hour12(mins) - 1) + (mins % 60) / 15]
  {
    var h := Hour12(mins);
    var m := mins % 60;
    var q := m / 15;
    var n := 4 * (h - 1) + q;
    assert 15 * q == m && q < 4 by {
      assert m % 15 == 0 by {
        assert mins == 60 * (mins / 60) + m;
      }
    }
    assert n / 4 + 1 == h && n % 4 == q;
    var all := TimeOptions();
    assert all[n] == OptionLabel(h, m);
    assert MinsToTime(mins).time == NatToString(h) + ":" + PadStart2(NatToString(m));
    assert m == 0 ==> PadStart2(NatToString(m)) == "00" by {
      assert NatToString(0) == "0";
    }
  }

  /** `times.filter(t => t > 0)`: the stored minutes `loadConfig` shows (midnight is dropped). */
  function Positive(times: seq<int>): (r: seq<int>)
    ensures |r| <= |times|
    ensures forall x :: x in r <==> x in times && x > 0
    ensures forall k :: 0 <= k < |r| ==> r[k] > 0
    decreases |times|
  {
    if times == [] then []
    else
      var last := times[|times| - 1];
      Positive(times[..|times| - 1]) + (if last > 0 then [last] else [])
  }

  /** A single minute is kept exactly when it is positive. */
  lemma PositiveSingle(x: int)
    ensures Positive([x]) == if x > 0 then [x] else []
  {
    assert [x][..0] == [];
  }

  /** The filter works piece by piece, so it keeps the order of the minutes it keeps. */
  lemma {:induction false} PositiveAppend(a: seq<int>, b: seq<int>)
    ensures Positive(a + b) == Positive(a) + Positive(b)
    decreases |b|
  {
    if b != [] {
      var init := b[..|b| - 1];
      var last := b[|b| - 1];
      assert (a + b)[..|a + b| - 1] == a + init;
      assert (a + b)[|a + b| - 1] == last;
      PositiveAppend(a, init);
    } else {
      assert a + b == a;
    }
  }

  /** Each positive minute is kept as often as it occurs; no other minute is kept. */
  lemma {:induction false} PositiveCounts(times: seq<int>, x: int)
    ensures multiset(Positive(times))[x] == if x > 0 then multiset(times)[x] else 0
    decreases |times|
  {
    if times != [] {
      var init := times[..|times| - 1];
      var last := times[|times| - 1];
      assert times == init + [last];
      PositiveCounts(init, x);
    }
  }

  /**
   * The value a time `<select>` holds after `loadConfig` assigns `v` to it:
   * `v` when it is one of the dropdown's options, otherwise "" (no option
   * selected).
   */
  function Shown(options: seq<string>, v: string): string {
    if v in options then v else ""
  }

  /** The slot `loadConfig` sets for a stored minute, given the time dropdown's options. */
  function SlotFor(options: seq<string>, mins: nat): Slot {
    var c := MinsToTime(mins);
    Slot(Shown(options, c.time), c.ampm)
  }

  /** A slot reset by `loadConfig`. */
  function ResetSlot(options: seq<string>): Slot {
    Slot(Shown(options, "None"), "AM")
  }

  /** `n` slots after `loadConfig`: the positive minutes in order, then reset slots. */
  function FilledSlots(valid: seq<int>, n: nat, options: seq<string>): (r: seq<Slot>)
    requires forall k :: 0 <= k < |valid| ==> valid[k] > 0
    ensures |r| == n
  {
    seq(n, i requires 0 <= i < n => if i < |valid| then SlotFor(options, valid[i]) else ResetSlot(options))
  }

  /**
   * Every filled slot shows one of the options or nothing; the first slots
   * show the stored minutes (when listed) with their half of the day, and the
   * rest are reset to "None" and "AM".
   */
  lemma FilledSlotsShow(valid: seq<int>, n: nat, options: seq<string>)
    requires forall k :: 0 <= k < |valid| ==> valid[k] > 0
    ensures forall i :: 0 <= i < n ==>
      FilledSlots(valid, n, options)[i].time in options || FilledSlots(valid, n, options)[i].time == ""
    ensures forall i :: 0 <= i < n && i < |valid| ==>
      FilledSlots(valid, n, options)[i].ampm == MinsToTime(valid[i]).ampm &&
      (MinsToTime(valid[i]).time in options ==> FilledSlots(valid, n, options)[i].time == MinsToTime(valid[i]).time)
    ensures forall i :: |valid| <= i < n ==>
      FilledSlots(valid, n, options)[i].ampm == "AM" &&
      ("None" in options ==> FilledSlots(valid, n, options)[i].time == "None")
  {
    var r := FilledSlots(valid, n, options);
    forall i | 0 <= i < n
      ensures r[i].time in options || r[i].time == ""
    {
      if i < |valid| {
        assert r[i] == SlotFor(options, valid[i]);
      } else {
        assert r[i] == ResetSlot(options);
      }
    }
    assert forall i :: 0 <= i < n && i < |valid| ==> r[i] == SlotFor(options, valid[i]);
    assert forall i :: |valid| <= i < n ==> r[i] == ResetSlot(options);
  }

  /** The two dropdown values `loadConfig` sets for a minute make up `SlotFor`. */
  lemma SlotShown(options: seq<string>, mins: nat)
    ensures Slot(Shown(options, MinsToTime(mins).time), Shown(["AM", "PM"], MinsToTime(mins).ampm)) ==
      SlotFor(options, mins)
  {
    assert MinsToTime(mins).ampm in ["AM", "PM"];
  }

  /** The two dropdown values `loadConfig` sets for an unused slot make up `ResetSlot`. */
  lemma ResetShown(options: seq<string>)
    ensures Slot(Shown(options, "None"), Shown(["AM", "PM"], "AM")) == ResetSlot(options)
  {
    assert ["AM", "PM"][0] == "AM";
  }

  /** Slots that hold the minutes' slots and then reset slots are `FilledSlots`. */
  lemma FilledSlotsAre(a: seq<Slot>, valid: seq<int>, options: seq<string>)
    requires forall k :: 0 <= k < |valid| ==> valid[k] > 0
    requires forall k :: 0 <= k < |a| && k < |valid| ==> a[k] == SlotFor(options, valid[k])
    requires forall k :: |valid| <= k < |a| ==> a[k] == ResetSlot(options)
    ensures a == FilledSlots(valid, |a|, options)
  {
  }

  /** The first loop of `loadConfig`'s day: each stored minute fills the slot at its position. */
  method FillTimes(slots: array<Slot>, valid: seq<int>, options: seq<string>)
    requires forall k :: 0 <= k < |valid| ==> valid[k] > 0
    modifies slots
    ensures forall k :: 0 <= k < slots.Length && k < |valid| ==> slots[k] == SlotFor(options, valid[k])
    ensures forall k :: |valid| <= k < slots.Length ==> slots[k] == old(slots[k])
  {
    var idx := 0;
    while idx < |valid|
      invariant 0 <= idx <= |valid|
      invariant forall k :: 0 <= k < slots.Length && k < idx ==> slots[k] == SlotFor(options, valid[k])
      invariant forall k :: idx <= k < slots.Length ==> slots[k] == old(slots[k])
    {
      if idx < slots.Length {
        var c := MinsToTime(valid[idx]);
        SlotShown(options, valid[idx]);
        slots[idx] := Slot(Shown(options, c.time), Shown(["AM", "PM"], c.ampm));
      }
      idx := idx + 1;
    }
  }

  /** The second loop of `loadConfig`'s day: every slot from `from` on is reset. */
  method ResetFrom(slots: array<Slot>, from: nat, options: seq<string>)
    modifies slots
    ensures forall k :: 0 <= k < slots.Length && k < from ==> slots[k] == old(slots[k])
    ensures forall k :: from <= k < slots.Length ==> slots[k] == ResetSlot(options)
  {
    var i := from;
    while i < slots.Length
      invariant from <= i
      invariant forall k :: 0 <= k < slots.Length && k < from ==> slots[k] == old(slots[k])
      invariant forall k :: from <= k < slots.Length && k < i ==> slots[k] == ResetSlot(options)
    {
      ResetShown(options);
      slots[i] := Slot(Shown(options, "None"), Shown(["AM", "PM"], "AM"));
      i := i + 1;
    }
  }

  /**
   * One day of `loadConfig`: keeps the positive minutes, ticks the checkbox
   * when there is one, fills the slots in order and resets the rest.
   */
  method LoadDay(slots: array<Slot>, times: seq<int>, options: seq<string>) returns (checked: bool)
    modifies slots
    ensures checked == (|Positive(times)| > 0)
    ensures slots[..] == FilledSlots(Positive(times), slots.Length, options)
  {
    var valid := Positive(times);
    checked := |valid| > 0;
    FillTimes(slots, valid, options);
    ResetFrom(slots, |valid|, options);
    FilledSlotsAre(slots[..], valid, options);
  }
}

=== FILE: roundtrip.dfy ===
/**
 * The portal and the device together: a schedule the device stores, shown by
 * `loadConfig` and sent back by `gatherSchedule`, is what `update_schedule`
 * parses and stores again.
 */
module RoundTrip {
  import opened Wrappers
  import opened Text
  import opened Numerals
  import opened Schedule
  import opened Portal
  import Controller

  /** The options of every time dropdown after `populateTimeOptions`. */
  function PortalOptions(): seq<string> {
    ["None"] + TimeOptions()
  }

  /** The 24-hour "H:MM" string the portal sends for a minute-of-day. */
  function Clock24(mins: nat): string {
    NatToString(mins / 60) + ":" + PadStart2(NatToString(mins % 60))
  }

  lemma DigitsHaveNoColon(s: string)
    requires AllDigits(s)
    ensures !Contains(s, ":")
  {
    ContainsChar(s, ':');
  }

  /** Two numerals joined by a colon split back into the two numerals. */
  lemma SplitNumerals(a: string, b: string)
    requires AllDigits(a) && AllDigits(b)
    ensures Split(a + ":" + b, ":") == [a, b]
  {
    DigitsHaveNoColon(a);
    DigitsHaveNoColon(b);
    SplitCons(a, ":", b);
    SplitNone(b, ":");
  }

  /** `gatherSchedule` on a slot holding two numerals around a colon. */
  lemma FormatNumerals(hs: string, ms: string, ampm: string)
    requires |hs| > 0 && AllDigits(hs) && |ms| > 0 && AllDigits(ms)
    ensures FormatSlot(hs + ":" + ms, ampm) ==
      Some(Render(To24(Num(ValueOf(hs)), ampm)) + ":" + PadStart2(Render(Num(ValueOf(ms)))))
  {
    SplitNumerals(hs, ms);
    JsParseIntOfNumeral(hs);
    JsParseIntOfNumeral(ms);
  }

  /**
   * `gatherSchedule` turns what `minsToTime` shows back into the 24-hour
   * "H:MM" of the same minute.
   */
  lemma FormatClock(mins: nat)
    requires mins < 1440
    ensures FormatSlot(MinsToTime(mins).time, MinsToTime(mins).ampm) == Some(Clock24(mins))
  {
    var c := MinsToTime(mins);
    var hs := NatToString(Hour12(mins));
    var ms := PadStart2(NatToString(mins % 60));
    assert |ms| > 0 && AllDigits(ms) && ValueOf(ms) == mins % 60 by {
      PaddedMinute(mins % 60);
    }
    assert To24(Num(ValueOf(hs)), c.ampm) == Num(mins / 60) by {
      To24Inverts(mins);
    }
    FormatNumerals(hs, ms, c.ampm);
  }

  /** A colon between two strings is found, so `update_schedule` keeps the entry. */
  lemma ColonKept(hs: string, ms: string)
    ensures Kept(Str(hs + ":" + ms))
  {
    ContainsChar(hs + ":" + ms, ':');
    assert (hs + ":" + ms)[|hs|] == ':';
  }

  /** `update_schedule` reads two numerals around a colon as hours and minutes. */
  lemma ParseNumerals(hs: string, ms: string)
    requires |hs| > 0 && AllDigits(hs) && |ms| > 0 && AllDigits(ms)
    ensures var t := ParseTime(hs + ":" + ms); t.Some? && t.value == ValueOf(hs) * 60 + ValueOf(ms)
  {
    var h, m := ValueOf(hs), ValueOf(ms);
    assert !Contains(hs, ":") && PyInt(hs) == Some(h) by {
      DigitsHaveNoColon(hs);
      PyIntOfNumeral(hs);
    }
    assert !Contains(ms, ":") && PyInt(ms) == Some(m) by {
      DigitsHaveNoColon(ms);
      PyIntOfNumeral(ms);
    }
    ParseTimeFields(hs, ms, h, m);
  }

  /**
   * `update_schedule` keeps the "H:MM" string and reads it back as the same
   * minute. This holds for every minute, past the end of the day too: the
   * device checks no range.
   */
  lemma ParseClock(mins: nat)
    ensures Kept(Str(Clock24(mins)))
    ensures var t := ParseTime(Clock24(mins)); t.Some? && t.value == mins
  {
    var hs := NatToString(mins / 60);
    var ms := PadStart2(NatToString(mins % 60));
    assert |ms| > 0 && AllDigits(ms) && ValueOf(ms) == mins % 60 by {
      PaddedMinute(mins % 60);
    }
    assert ValueOf(hs) * 60 + ValueOf(ms) == mins;
    ParseNumerals(hs, ms);
    ColonKept(hs, ms);
  }

  /** A time the page shows starts with a digit, so it is never the "None" option. */
  lemma ShownTimeIsNotNone(mins: nat)
    ensures MinsToTime(mins).time != "None"
  {
    assert MinsToTime(mins).time[0] == NatToString(Hour12(mins))[0];
  }

  /** A quarter-hour minute of the day is shown as it is; its slot sends back its "H:MM". */
  lemma QuarterSlotSends(mins: nat)
    requires 0 < mins < 1440 && mins % 15 == 0
    ensures SlotFor(PortalOptions(), mins) == Slot(MinsToTime(mins).time, MinsToTime(mins).ampm)
    ensures SlotFor(PortalOptions(), mins).time != "None"
    ensures Formatted(SlotFor(PortalOptions(), mins)) == Some(Clock24(mins))
  {
    var c := MinsToTime(mins);
    assert c.time in PortalOptions() by {
      QuarterHourListed(mins);
      var k := 4 * (Hour12(mins) - 1) + (mins % 60) / 15;
      assert PortalOptions()[k + 1] == c.time;
    }
    assert SlotFor(PortalOptions(), mins) == Slot(c.time, c.ampm);
    assert c.time != "None" by {
      ShownTimeIsNotNone(mins);
    }
    assert Formatted(Slot(c.time, c.ampm)) == Some(Clock24(mins)) by {
      FormatClock(mins);
    }
  }

  /** An option's minute numeral, and the option split at its colon. */
  lemma QuarterLabelParts(h: nat, q: nat)
    requires q < 4
    ensures var parts := Split(QuarterLabel(h, q), ":");
      |parts| == 2 && AllDigits(parts[1]) && ValueOf(parts[1]) == 15 * q
  {
    var mm := if 15 * q == 0 then "00" else PadStart2(NatToString(15 * q));
    assert AllDigits(mm) && ValueOf(mm) == 15 * q by {
      if 15 * q != 0 {
        PaddedMinute(15 * q);
      } else {
        assert "00"[..1] == "0" && "0"[..0] == [];
      }
    }
    assert QuarterLabel(h, q) == NatToString(h) + ":" + mm;
    SplitNumerals(NatToString(h), mm);
  }

  /** Every option but "None" has a colon followed by a numeral worth 0, 15, 30 or 45. */
  lemma OptionMinute(k: nat)
    requires 1 <= k < |PortalOptions()|
    ensures var parts := Split(PortalOptions()[k], ":");
      |parts| == 2 && AllDigits(parts[1]) && ValueOf(parts[1]) in {0, 15, 30, 45}
  {
    var h := (k - 1) / 4 + 1;
    var q := (k - 1) % 4;
    assert PortalOptions()[k] == QuarterLabel(h, q) by {
      assert PortalOptions()[k] == TimeOptions()[k - 1];
    }
    QuarterLabelParts(h, q);
    assert 15 * q in {0, 15, 30, 45} by {
      assert q == 0 || q == 1 || q == 2 || q == 3;
    }
  }

  /**
   * A minute off the quarter hour matches no option, so its dropdown is left
   * with nothing selected.
   */
  lemma OffQuarterNotListed(mins: nat)
    requires mins < 1440 && mins % 15 != 0
    ensures MinsToTime(mins).time !in PortalOptions()
  {
    var t := MinsToTime(mins).time;
    var hs := NatToString(Hour12(mins));
    var ms := PadStart2(NatToString(mins % 60));
    assert AllDigits(ms) && ValueOf(ms) !in {0, 15, 30, 45} by {
      PaddedMinute(mins % 60);
    }
    assert Split(t, ":")[1] == ms by {
      SplitNumerals(hs, ms);
    }
    ShownTimeIsNotNone(mins);
    forall k | 1 <= k < |PortalOptions()|
      ensures PortalOptions()[k] != t
    {
      OptionMinute(k);
      assert Split(PortalOptions()[k], ":")[1] != ms;
    }
  }

  /** Such a slot throws in `gatherSchedule`: the empty value has no ":". */
  lemma OffQuarterSlotThrows(mins: nat)
    requires 0 < mins < 1440 && mins % 15 != 0
    ensures SlotFor(PortalOptions(), mins).time == ""
    ensures Formatted(SlotFor(PortalOptions(), mins)).None?
  {
    OffQuarterNotListed(mins);
    SplitNone("", ":");
  }

  /** The slots a user picked are the first `m` when the rest show "None". */
  lemma {:induction false} ChosenPrefix(slots: seq<Slot>, m: nat)
    requires m <= |slots|
    requires forall k :: 0 <= k < m ==> slots[k].time != "None"
    requires forall k :: m <= k < |slots| ==> slots[k].time == "None"
    ensures Chosen(slots) == slots[..m]
    decreases |slots|
  {
    if slots != [] {
      var init := slots[..|slots| - 1];
      if m < |slots| {
        ChosenPrefix(init, m);
        assert init[..m] == slots[..m];
      } else {
        ChosenPrefix(init, m - 1);
        assert init[..m - 1] + [slots[m - 1]] == slots[..m];
      }
    }
  }

  /** A stored day whose times lie on quarter hours within the day. */
  predicate OnQuarterHours(times: seq<int>) {
    forall t :: t in times ==> t < 1440 && t % 15 == 0
  }

  /** The strings `gatherSchedule` sends for a day's minutes. */
  function Clocks(valid: seq<int>): (r: seq<string>)
    requires forall k :: 0 <= k < |valid| ==> valid[k] >= 0
    ensures |r| == |valid|
  {
    seq(|valid|, k requires 0 <= k < |valid| => Clock24(valid[k]))
  }

  /** The filled slots: the quarter hours first, each sending its "H:MM" string, then "None" slots. */
  lemma FilledQuarterSlots(valid: seq<int>, n: nat)
    requires forall k :: 0 <= k < |valid| ==> 0 < valid[k] < 1440 && valid[k] % 15 == 0
    requires |valid| <= n
    ensures forall k :: 0 <= k < |valid| ==>
      FilledSlots(valid, n, PortalOptions())[k].time != "None" &&
      Formatted(FilledSlots(valid, n, PortalOptions())[k]) == Some(Clocks(valid)[k])
    ensures forall k :: |valid| <= k < n ==> FilledSlots(valid, n, PortalOptions())[k].time == "None"
  {
    var slots := FilledSlots(valid, n, PortalOptions());
    forall k | 0 <= k < |valid|
      ensures slots[k].time != "None" && Formatted(slots[k]) == Some(Clocks(valid)[k])
    {
      assert slots[k] == SlotFor(PortalOptions(), valid[k]);
      QuarterSlotSends(valid[k]);
    }
    assert PortalOptions()[0] == "None";
    assert forall k :: |valid| <= k < n ==> slots[k] == ResetSlot(PortalOptions());
  }

  /** Slots whose first `|texts|` are chosen and format to `texts`, the rest "None", gather to `texts`. */
  lemma GatherPrefix(format: Slot -> Option<string>, slots: seq<Slot>, texts: seq<string>)
    requires |texts| <= |slots|
    requires forall k :: 0 <= k < |texts| ==> slots[k].time != "None" && format(slots[k]) == Some(texts[k])
    requires forall k :: |texts| <= k < |slots| ==> slots[k].time == "None"
    ensures GatherSlots(format, slots) == Some(texts)
  {
    ChosenPrefix(slots, |texts|);
    GatherSlotsSucceed(format, slots);
    GatherSlotsValues(format, slots);
    var got := GatherSlots(format, slots).value;
    assert forall k :: 0 <= k < |texts| ==> got[k] == texts[k];
    assert got == texts;
  }

  /** The slots `loadConfig` fills with quarter hours gather to their "H:MM" strings. */
  lemma GatherFilled(valid: seq<int>, n: nat)
    requires forall k :: 0 <= k < |valid| ==> 0 < valid[k] < 1440 && valid[k] % 15 == 0
    requires |valid| <= n
    ensures GatherDay(FilledSlots(valid, n, PortalOptions())) == Some(Clocks(valid))
  {
    FilledQuarterSlots(valid, n);
    GatherPrefix(Formatted, FilledSlots(valid, n, PortalOptions()), Clocks(valid));
  }

  /** A list of strings, each with a ":" and each parsing to its value, parses to the values. */
  lemma {:induction false} ParseEachAll(parse: string -> Option<int>, texts: seq<string>, values: seq<int>)
    requires |texts| == |values|
    requires forall k :: 0 <= k < |texts| ==> Contains(texts[k], ":") && parse(texts[k]) == Some(values[k])
    ensures ParseEach(parse, StringEntries(texts)) == Some(values)
    decreases |texts|
  {
    if texts != [] {
      var n := |texts| - 1;
      ParseEachAll(parse, texts[..n], values[..n]);
      assert StringEntries(texts)[..n] == StringEntries(texts[..n]);
      assert values[..n] + [values[n]] == values;
    }
  }

  /** `update_schedule` reads the sent strings back as the minutes. */
  lemma ParseClocks(valid: seq<int>)
    requires forall k :: 0 <= k < |valid| ==> valid[k] >= 0
    ensures ParseTimes(StringEntries(Clocks(valid))) == Some(valid)
  {
    var texts := Clocks(valid);
    forall k | 0 <= k < |texts|
      ensures Contains(texts[k], ":") && ParseTime(texts[k]) == Some(valid[k])
    {
      ParseClock(valid[k]);
    }
    ParseEachAll(ParseTime, texts, valid);
  }

  /**
   * One day round trip: `loadConfig` fills `n` slots from the stored minutes,
   * `gatherSchedule` gathers them, and `update_schedule` parses them back to
   * the stored minutes without midnight (and anything not positive).
   */
  lemma DayRoundTrip(times: seq<int>, n: nat)
    requires OnQuarterHours(times) && |Positive(times)| <= n
    ensures GatherDay(FilledSlots(Positive(times), n, PortalOptions())).Some?
    ensures ParseTimes(StringEntries(GatherDay(FilledSlots(Positive(times), n, PortalOptions())).value)) == Some(Positive(times))
  {
    var valid := Positive(times);
    forall k | 0 <= k < |valid|
      ensures 0 < valid[k] < 1440 && valid[k] % 15 == 0
    {
      assert valid[k] in valid;
    }
    GatherFilled(valid, n);
    ParseClocks(valid);
  }

  /** Every positive minute of a quarter-hour day is a quarter hour within the day. */
  lemma PositiveQuarterHours(times: seq<int>)
    requires OnQuarterHours(times)
    ensures forall k :: 0 <= k < |Positive(times)| ==> 0 < Positive(times)[k] < 1440 && Positive(times)[k] % 15 == 0
  {
    forall k | 0 <= k < |Positive(times)|
      ensures 0 < Positive(times)[k] < 1440 && Positive(times)[k] % 15 == 0
    {
      assert Positive(times)[k] in Positive(times);
    }
  }

  /** A day's stored minutes as `loadConfig` reads them: none for a missing day. */
  function StoredTimes(schedule: map<string, seq<int>>, day: string): seq<int> {
    if day in schedule then schedule[day] else []
  }

  /** The scheduling form after `loadConfig`, each of the seven days with a checkbox and `n` slots. */
  function LoadedForm(schedule: map<string, seq<int>>, n: nat): map<string, DayForm> {
    map d | d in PortalDays ::
      DayForm(|Positive(StoredTimes(schedule, d))| > 0, FilledSlots(Positive(StoredTimes(schedule, d)), n, PortalOptions()))
  }

  /** The body `saveSchedule` posts, as `update_schedule` receives it. */
  function AsScheduleRequest(sent: map<string, seq<string>>): map<string, DayValue> {
    map d | d in sent :: List(StringEntries(sent[d]))
  }

  /** The schedule the device holds after the page is loaded and saved unchanged. */
  function Resaved(schedule: map<string, seq<int>>): map<string, seq<int>> {
    map d | d in PortalDays && |Positive(StoredTimes(schedule, d))| > 0 :: Positive(StoredTimes(schedule, d))
  }

  /** What `gatherSchedule` sends for the loaded form: each day with a positive minute, as "H:MM" strings. */
  function Sent(schedule: map<string, seq<int>>): map<string, seq<string>> {
    map d | d in PortalDays && |Positive(StoredTimes(schedule, d))| > 0 :: Clocks(Positive(StoredTimes(schedule, d)))
  }

  /** `gatherSchedule` on the form `loadConfig` filled sends `Sent(schedule)`. */
  lemma LoadedGathered(schedule: map<string, seq<int>>, n: nat)
    requires forall d :: d in schedule ==> OnQuarterHours(schedule[d]) && |Positive(schedule[d])| <= n
    ensures GatherDays(LoadedForm(schedule, n), PortalDays) == Some(Sent(schedule))
  {
    var form := LoadedForm(schedule, n);
    forall d | d in PortalDays
      ensures GatherDay(form[d].slots) == Some(Clocks(Positive(StoredTimes(schedule, d))))
    {
      var times := StoredTimes(schedule, d);
      assert OnQuarterHours(times) && |Positive(times)| <= n;
      PositiveQuarterHours(times);
      GatherFilled(Positive(times), n);
    }
    GatherEachIs(GatherDay, form, PortalDays, Sent(schedule));
  }

  /**
   * Saving what the page gathered stores, for each of the seven days with a
   * positive minute, that day's positive minutes in order; the other days,
   * midnight entries and keys that are not day names are dropped.
   */
  lemma ScheduleRoundTrip(schedule: map<string, seq<int>>)
    ensures ParseSchedule(AsScheduleRequest(Sent(schedule))) == Some(Resaved(schedule))
  {
    SentDaysParse(schedule);
    assert AsScheduleRequest(Sent(schedule)).Keys == Resaved(schedule).Keys;
    ParseScheduleIs(AsScheduleRequest(Sent(schedule)), Resaved(schedule));
  }

  /**
   * The device's schedule, loaded into a page with `n` slots per day and
   * saved without an edit: the save succeeds, the stored schedule becomes
   * `Resaved` of the old one, and nothing else in the device's state changes.
   */
  lemma SaveLoadedPage(s: Controller.State, n: nat)
    requires s.config.Some?
    requires forall d :: d in s.config.value.schedule ==>
      OnQuarterHours(s.config.value.schedule[d]) && |Positive(s.config.value.schedule[d])| <= n
    ensures GatherDays(LoadedForm(s.config.value.schedule, n), PortalDays).Some?
    ensures var sent := GatherDays(LoadedForm(s.config.value.schedule, n), PortalDays).value;
      Controller.ScheduleUpdated(s, AsScheduleRequest(sent)) ==
        s.(config := Some(s.config.value.(schedule := Resaved(s.config.value.schedule))))
  {
    var schedule := s.config.value.schedule;
    LoadedGathered(schedule, n);
    ScheduleRoundTrip(schedule);
    assert Controller.ScheduleAccepted(s, AsScheduleRequest(Sent(schedule)));
  }

  /** Every day sent parses back to that day's positive minutes. */
  lemma SentDaysParse(schedule: map<string, seq<int>>)
    ensures forall d :: d in AsScheduleRequest(Sent(schedule)) ==>
      d in Resaved(schedule) && ParseDay(AsScheduleRequest(Sent(schedule))[d]) == Some(Resaved(schedule)[d])
  {
    forall d | d in AsScheduleRequest(Sent(schedule))
      ensures d in Resaved(schedule) && ParseDay(AsScheduleRequest(Sent(schedule))[d]) == Some(Resaved(schedule)[d])
    {
      ParseClocks(Positive(StoredTimes(schedule, d)));
    }
  }

  /** A time past the end of the day is stored as is: "25:00" as minute 1500. */
  lemma LateTimeAccepted()
    ensures var t := ParseTime("25:00"); t.Some? && t.value == 1500
  {
    assert Clock24(1500) == "25:00" by {
      assert 1500 / 60 == 25 && 1500 % 60 == 0;
      assert NatToString(25) == "25" && NatToString(0) == "0";
    }
    ParseClock(1500);
  }

  /** The page shows minute 1500 as 1:00 PM. */
  lemma LateTimeShown()
    ensures MinsToTime(1500) == ClockTime("1:00", "PM")
  {
    assert Hour12(1500) == 1 && 1500 % 60 == 0;
    assert NatToString(1) == "1" && NatToString(0) == "0";
  }

  /** Saving that slot sends "13:00", which the device stores as minute 780. */
  lemma LateTimeResent()
    ensures FormatSlot("1:00", "PM") == Some("13:00")
    ensures var t := ParseTime("13:00"); t.Some? && t.value == 780
  {
    var shown := MinsToTime(780);
    assert shown.time == "1:00" && shown.ampm == "PM" by {
      assert Hour12(780) == 1 && 780 % 60 == 0;
      assert NatToString(1) == "1" && NatToString(0) == "0";
    }
    assert Clock24(780) == "13:00" by {
      assert 780 / 60 == 13 && 780 % 60 == 0;
      assert NatToString(13) == "13" && NatToString(0) == "0";
    }
    assert FormatSlot(shown.time, shown.ampm) == Some(Clock24(780)) by {
      FormatClock(780);
    }
    assert var t := ParseTime(Clock24(780)); t.Some? && t.value == 780 by {
      ParseClock(780);
    }
  }
}

=== FILE: schedule.dfy ===
/**
 * The schedule format shared by the device and the portal: a map from a day
 * key ("mon", "tue", ...) to a list of trigger minutes-of-day, sent by the
 * portal as "H:MM" strings and turned into `H*60+M` offsets by the device's
 * `update_schedule`.
 */
module Schedule {
  import opened Wrappers
  import opened Text
  import opened Numerals

  /** One entry of a day's list in the request body: a JSON string, or any other JSON value. */
  datatype TimeValue = Str(s: string) | NonString

  /** An entry `update_schedule` converts: a string holding a colon (the rest are dropped). */
  predicate Kept(t: TimeValue) {
    t.Str? && Contains(t.s, ":")
  }

  /**
   * `h, m = map(int, t.split(":"))` followed by `h * 60 + m`: None when the
   * string does not split into exactly two parts or a part is not an integer
   * (the exception that makes the whole update fail). No range check.
   */
  function ParseTime(t: string): (r: Option<int>)
    ensures !Contains(t, ":") ==> r.None?
  {
    var parts := Split(t, ":");
    assert !Contains(t, ":") ==> |parts| == 1 by {
      if !Contains(t, ":") { SplitNone(t, ":"); }
    }
    if |parts| == 2 && PyInt(parts[0]).Some? && PyInt(parts[1]).Some? then
      Some(PyInt(parts[0]).value * 60 + PyInt(parts[1]).value)
    else
      None
  }

  /** Every time that parses is two colon-free integer fields around one colon. */
  lemma ParseTimeParts(t: string)
    requires ParseTime(t).Some?
    ensures exists a, b ::
      t == a + ":" + b && !Contains(a, ":") && !Contains(b, ":") &&
      PyInt(a).Some? && PyInt(b).Some? && ParseTime(t).value == PyInt(a).value * 60 + PyInt(b).value
  {
    var parts := Split(t, ":");
    JoinSplit(t, ":");
    SplitPiecesFree(t, ":");
    assert parts[1..] == [parts[1]];
    assert t == parts[0] + ":" + parts[1];
  }

  /** Two integer fields around one colon give hours times 60 plus minutes, in any range. */
  lemma ParseTimeFields(a: string, b: string, h: int, m: int)
    requires !Contains(a, ":") && !Contains(b, ":")
    requires PyInt(a) == Some(h) && PyInt(b) == Some(m)
    ensures ParseTime(a + ":" + b) == Some(h * 60 + m)
  {
    var t := a + ":" + b;
    SplitCons(a, ":", b);
    SplitNone(b, ":");
    assert Split(t, ":") == [a, b];
  }

  /** A string with more than one colon never parses. */
  lemma ParseTimeTooManyColons(a: string, b: string, c: string)
    requires !Contains(a, ":") && !Contains(b, ":")
    ensures ParseTime(a + ":" + b + ":" + c) == None
  {
    assert a + ":" + b + ":" + c == a + ":" + (b + ":" + c);
    SplitCons(a, ":", b + ":" + c);
    SplitCons(b, ":", c);
  }

  /** The strings of the kept entries, in input order. */
  function KeptTexts(times: seq<TimeValue>): (r: seq<string>)
    ensures |r| <= |times|
    decreases |times|
  {
    if times == [] then []
    else
      var last := times[|times| - 1];
      KeptTexts(times[..|times| - 1]) + (if Kept(last) then [last.s] else [])
  }

  /**
   * The inner loop of `update_schedule` over one day's list, reading each
   * kept entry with `parse`: entries that are not strings with a ":" are
   * skipped, and the first entry that raises (None) fails the day.
   */
  function ParseEach(parse: string -> Option<int>, times: seq<TimeValue>): Option<seq<int>>
    decreases |times|
  {
    if times == [] then Some([])
    else
      var last := times[|times| - 1];
      match ParseEach(parse, times[..|times| - 1])
      case None => None
      case Some(prefix) =>
        if !Kept(last) then Some(prefix)
        else match parse(last.s)
          case None => None
          case Some(v) => Some(prefix + [v])
  }

  /** One day's list as `update_schedule` converts it. */
  function ParseTimes(times: seq<TimeValue>): Option<seq<int>> {
    ParseEach(ParseTime, times)
  }

  /** KeptTexts grows by the last entry's string exactly when that entry is kept. */
  lemma KeptSnoc(init: seq<TimeValue>, last: TimeValue)
    ensures KeptTexts(init + [last]) == KeptTexts(init) + (if Kept(last) then [last.s] else [])
  {
    assert (init + [last])[..|init|] == init;
  }

  /** A list of JSON strings, as entries of a day. */
  function StringEntries(texts: seq<string>): (r: seq<TimeValue>)
    ensures |r| == |texts| && forall k :: 0 <= k < |r| ==> r[k] == Str(texts[k])
  {
    seq(|texts|, k requires 0 <= k < |texts| => Str(texts[k]))
  }

  /** The one-character strings a Python string yields when iterated. */
  function CharEntries(text: string): (r: seq<TimeValue>)
    ensures |r| == |text| && forall k :: 0 <= k < |r| ==> r[k] == Str([text[k]])
  {
    seq(|text|, k requires 0 <= k < |text| => Str([text[k]]))
  }

  /**
   * A day's value in the request body. `for t in times` walks a list over its
   * entries, a string over its characters and an object over its keys; null,
   * a number or a boolean cannot be iterated.
   */
  datatype DayValue = List(items: seq<TimeValue>) | Text(text: string) | Object(keys: seq<string>) | Scalar

  /** The entries `for t in times` visits, or None for the TypeError it raises. */
  function DayEntries(v: DayValue): (r: Option<seq<TimeValue>>)
    ensures r.None? <==> v.Scalar?
  {
    match v
    case List(items) => Some(items)
    case Text(text) => Some(CharEntries(text))
    case Object(keys) => Some(StringEntries(keys))
    case Scalar => None
  }

  /** One day's value as `update_schedule` converts it. */
  function ParseDay(v: DayValue): (r: Option<seq<int>>)
    ensures v.Scalar? ==> r.None?
    ensures v.List? ==> r == ParseTimes(v.items)
  {
    match DayEntries(v)
    case None => None
    case Some(entries) => ParseTimes(entries)
  }

  /** A lone ":" splits into two empty fields, and `int("")` raises. */
  lemma ColonAloneFails()
    ensures ParseTime(":") == None
  {
    SplitNone("", ":");
    SplitCons("", ":", "");
    assert "" + ":" + "" == ":";
    assert Split(":", ":") == ["", ""];
    assert Strip("") == "";
  }

  /**
   * A day given as a string is walked character by character: the day fails
   * when the string holds a ":" (that character alone does not convert), and
   * is stored as an empty list otherwise.
   */
  lemma {:induction false} TextDay(text: string)
    ensures ParseDay(Text(text)) == if ':' in text then None else Some([])
    decreases |text|
  {
    if text != [] {
      var init := text[..|text| - 1];
      var c := text[|text| - 1];
      TextDay(init);
      assert CharEntries(text)[..|text| - 1] == CharEntries(init);
      assert ':' in text <==> ':' in init || c == ':' by {
        assert text == init + [c];
      }
      ContainsChar([c], ':');
      if c == ':' {
        ColonAloneFails();
      }
    }
  }

  /** A day given as an object converts as the list of its keys. */
  lemma ObjectDay(keys: seq<string>)
    ensures ParseDay(Object(keys)) == ParseDay(List(StringEntries(keys)))
  {
  }

  /** A day's list parses exactly when every kept entry parses. */
  lemma {:induction false} ParseEachSucceeds(parse: string -> Option<int>, times: seq<TimeValue>)
    ensures ParseEach(parse, times).Some? <==>
      forall k :: 0 <= k < |KeptTexts(times)| ==> parse(KeptTexts(times)[k]).Some?
    decreases |times|
  {
    if times != [] {
      var init := times[..|times| - 1];
      var last := times[|times| - 1];
      ParseEachSucceeds(parse, init);
      assert times == init + [last];
      KeptSnoc(init, last);
      var ki := KeptTexts(init);
      var kt := KeptTexts(times);
      if !Kept(last) {
        assert kt == ki;
      } else {
        assert kt == ki + [last.s];
        if ParseEach(parse, init).None? {
          var k :| 0 <= k < |ki| && parse(ki[k]).None?;
          assert kt[k] == ki[k];
        } else if parse(last.s).None? {
          assert kt[|ki|] == last.s;
        } else {
          forall k | 0 <= k < |kt|
            ensures parse(kt[k]).Some?
          {
            if k < |ki| {
              assert kt[k] == ki[k];
            }
          }
        }
      }
    }
  }

  /** A parsed day holds the kept entries' values in input order. */
  lemma {:induction false} ParseEachValues(parse: string -> Option<int>, times: seq<TimeValue>)
    requires ParseEach(parse, times).Some?
    ensures |ParseEach(parse, times).value| == |KeptTexts(times)|
    ensures forall k :: 0 <= k < |KeptTexts(times)| ==>
      parse(KeptTexts(times)[k]) == Some(ParseEach(parse, times).value[k])
    decreases |times|
  {
    if times != [] {
      var init := times[..|times| - 1];
      var last := times[|times| - 1];
      assert times == init + [last];
      KeptSnoc(init, last);
      ParseEachValues(parse, init);
      var ki := KeptTexts(init);
      var kt := KeptTexts(times);
      var ri := ParseEach(parse, init).value;
      var r := ParseEach(parse, times).value;
      if !Kept(last) {
        assert kt == ki && r == ri;
      } else {
        assert kt == ki + [last.s];
        assert r == ri + [parse(last.s).value];
        SnocPairs(parse, ki, ri, last.s, parse(last.s).value);
      }
    }
  }

  /** Entries that parse to their values still do after one more such pair. */
  lemma SnocPairs(parse: string -> Option<int>, texts: seq<string>, values: seq<int>, t: string, v: int)
    requires |texts| == |values| && parse(t) == Some(v)
    requires forall k :: 0 <= k < |texts| ==> parse(texts[k]) == Some(values[k])
    ensures forall k :: 0 <= k < |texts| + 1 ==> parse((texts + [t])[k]) == Some((values + [v])[k])
  {
  }

  /** Once an entry has raised, later entries cannot rescue the day. */
  lemma {:induction false} ParseEachFailureSticks(parse: string -> Option<int>, times: seq<TimeValue>, i: nat)
    requires i <= |times| && ParseEach(parse, times[..i]).None?
    ensures ParseEach(parse, times).None?
    decreases |times| - i
  {
    if i < |times| {
      assert times[..i + 1][..i] == times[..i];
      ParseEachFailureSticks(parse, times, i + 1);
    } else {
      assert times[..i] == times;
    }
  }

  /** The list-building loop of `update_schedule` for one day. */
  method ParseDayTimes(times: seq<TimeValue>) returns (mins: Option<seq<int>>)
    ensures mins == ParseTimes(times)
  {
    var acc: seq<int> := [];
    var i := 0;
    while i < |times|
      invariant 0 <= i <= |times|
      invariant ParseEach(ParseTime, times[..i]) == Some(acc)
    {
      var t := times[i];
      assert times[..i + 1][..i] == times[..i];
      if t.Str? && Contains(t.s, ":") {
        var v := ParseTime(t.s);
        if v.None? {
          ParseEachFailureSticks(ParseTime, times, i + 1);
          return None;
        }
        acc := acc + [v.value];
      }
      i := i + 1;
    }
    assert times[..i] == times;
    mins := Some(acc);
  }

  /**
   * The whole request: every day converted, or None when any entry of any day
   * raises. On success the stored schedule holds exactly the request's days.
   */
  function ParseSchedule(request: map<string, DayValue>): (r: Option<map<string, seq<int>>>)
    ensures r.Some? <==> forall d :: d in request ==> ParseDay(request[d]).Some?
    ensures r.Some? ==> r.value.Keys == request.Keys
  {
    if forall d :: d in request ==> ParseDay(request[d]).Some? then
      Some(map d | d in request :: ParseDay(request[d]).value)
    else
      None
  }

  /** A request whose every day parses to the matching day of `result` is stored as `result`. */
  lemma ParseScheduleIs(request: map<string, DayValue>, result: map<string, seq<int>>)
    requires request.Keys == result.Keys
    requires forall d :: d in request ==> ParseDay(request[d]) == Some(result[d])
    ensures ParseSchedule(request) == Some(result)
  {
    assert forall d :: d in request ==> ParseDay(request[d]).Some?;
    var r := map d | d in request :: ParseDay(request[d]).value;
    assert ParseSchedule(request) == Some(r);
    assert r.Keys == result.Keys;
    assert forall d :: d in r ==> r[d] == result[d];
    assert r == result;
  }
}

=== FILE: text.dfy ===
/**
 * String operations with the semantics of MicroPython's and JavaScript's
 * `str.split`, `in`, `startswith`/`endswith`, `strip` and `lower`.
 */
module Text {
  import opened Wrappers

  predicate StartsWith(s: string, prefix: string) {
    |prefix| <= |s| && s[..|prefix|] == prefix
  }

  predicate EndsWith(s: string, suffix: string) {
    |suffix| <= |s| && s[|s| - |suffix|..] == suffix
  }

  /** `sep` occurs in `s` starting at index `j`. */
  predicate OccursAt(s: string, sep: string, j: int) {
    0 <= j && j + |sep| <= |s| && s[j..j + |sep|] == sep
  }

  /** The first occurrence of `sep` in `s` at or after index `from`. */
  function FindFrom(s: string, sep: string, from: nat): (r: Option<nat>)
    requires |sep| > 0
    ensures r.Some? ==> from <= r.value && OccursAt(s, sep, r.value)
    ensures r.Some? ==> forall j :: from <= j < r.value ==> !OccursAt(s, sep, j)
    ensures r.None? ==> forall j :: from <= j ==> !OccursAt(s, sep, j)
    decreases |s| - from
  {
    if from + |sep| > |s| then None
    else if s[from..from + |sep|] == sep then Some(from)
    else FindFrom(s, sep, from + 1)
  }

  function Find(s: string, sep: string): Option<nat>
    requires |sep| > 0
  {
    FindFrom(s, sep, 0)
  }

  /** The first occurrence is where the separator occurs with none before it. */
  lemma FindIs(s: string, sep: string, i: nat)
    requires |sep| > 0 && OccursAt(s, sep, i)
    requires forall j :: 0 <= j < i ==> !OccursAt(s, sep, j)
    ensures Find(s, sep) == Some(i)
  {
  }

  /** Python's and JavaScript's `sep in s` / `s.includes(sep)`. */
  predicate Contains(s: string, sep: string)
    requires |sep| > 0
  {
    Find(s, sep).Some?
  }

  /** `s.split(sep)`: the pieces between non-overlapping occurrences, left to right. */
  function Split(s: string, sep: string): (r: seq<string>)
    requires |sep| > 0
    ensures |r| >= 1
    decreases |s|
  {
    match Find(s, sep)
    case None => [s]
    case Some(i) => [s[..i]] + Split(s[i + |sep|..], sep)
  }

  /** A string splits into more than one piece exactly when it holds the separator. */
  lemma SplitOne(s: string, sep: string)
    requires |sep| > 0
    ensures |Split(s, sep)| == 1 <==> !Contains(s, sep)
  {
    if Contains(s, sep) {
      var i := Find(s, sep).value;
      assert |Split(s[i + |sep|..], sep)| >= 1;
    }
  }

  /** The pieces glued back with `sep` (`sep.join(pieces)`). */
  function Join(pieces: seq<string>, sep: string): string
    decreases |pieces|
  {
    if |pieces| == 0 then ""
    else if |pieces| == 1 then pieces[0]
    else pieces[0] + sep + Join(pieces[1..], sep)
  }

  /** Splitting loses nothing: joining the pieces gives the string back. */
  lemma {:induction false} JoinSplit(s: string, sep: string)
    requires |sep| > 0
    ensures Join(Split(s, sep), sep) == s
    decreases |s|
  {
    match Find(s, sep)
    case None =>
    case Some(i) =>
      var rest := s[i + |sep|..];
      var pieces := [s[..i]] + Split(rest, sep);
      assert Split(s, sep) == pieces;
      assert pieces[1..] == Split(rest, sep);
      calc {
        Join(pieces, sep);
        s[..i] + sep + Join(Split(rest, sep), sep);
        { JoinSplit(rest, sep); }
        s[..i] + sep + rest;
        { assert s[i..i + |sep|] == sep; }
        s;
      }
  }

  /** No piece of a split contains the separator. */
  lemma {:induction false} SplitPiecesFree(s: string, sep: string)
    requires |sep| > 0
    ensures forall k :: 0 <= k < |Split(s, sep)| ==> !Contains(Split(s, sep)[k], sep)
    decreases |s|
  {
    match Find(s, sep)
    case None =>
    case Some(i) =>
      var rest := s[i + |sep|..];
      SplitPiecesFree(rest, sep);
      var head := s[..i];
      forall j | 0 <= j && j + |sep| <= |head|
        ensures !OccursAt(head, sep, j)
      {
        assert head[j..j + |sep|] == s[j..j + |sep|];
        assert !OccursAt(s, sep, j);
      }
  }

  /** For a one-character separator, a free leading piece splits off on its own. */
  lemma SplitCons(a: string, sep: string, rest: string)
    requires |sep| == 1 && !Contains(a, sep)
    ensures Split(a + sep + rest, sep) == [a] + Split(rest, sep)
  {
    var s := a + sep + rest;
    assert OccursAt(s, sep, |a|);
    forall j | 0 <= j < |a|
      ensures !OccursAt(s, sep, j)
    {
      if OccursAt(s, sep, j) {
        assert a[j..j + 1] == s[j..j + 1];
        assert OccursAt(a, sep, j);
      }
    }
    assert Find(s, sep) == Some(|a|);
    assert s[..|a|] == a;
    assert s[|a| + 1..] == rest;
  }

  /** A string without the separator is a single piece. */
  lemma SplitNone(s: string, sep: string)
    requires |sep| > 0 && !Contains(s, sep)
    ensures Split(s, sep) == [s]
  {
  }

  /** A one-character separator occurs exactly where that character stands. */
  lemma ContainsChar(s: string, c: char)
    ensures Contains(s, [c]) <==> exists i :: 0 <= i < |s| && s[i] == c
  {
    if i :| 0 <= i < |s| && s[i] == c {
      assert OccursAt(s, [c], i);
    }
    if Contains(s, [c]) {
      var i := Find(s, [c]).value;
      assert s[i..i + 1] == [c];
      assert s[i] == c;
    }
  }

  /** MicroPython's `str.isspace` (ASCII whitespace only). */
  predicate IsSpace(c: char) {
    c == ' ' || c == '\t' || c == '\n' || c == '\r' || c == '\U{000B}' || c == '\U{000C}'
  }

  function TrimStart(s: string): (r: string)
    ensures |r| <= |s| && r == s[|s| - |r|..]
    ensures forall i :: 0 <= i < |s| - |r| ==> IsSpace(s[i])
    ensures r == [] || !IsSpace(r[0])
    decreases |s|
  {
    if |s| > 0 && IsSpace(s[0]) then TrimStart(s[1..]) else s
  }

  function TrimEnd(s: string): (r: string)
    ensures |r| <= |s| && r == s[..|r|]
    ensures forall i :: |r| <= i < |s| ==> IsSpace(s[i])
    ensures r == [] || !IsSpace(r[|r| - 1])
    decreases |s|
  {
    if |s| > 0 && IsSpace(s[|s| - 1]) then TrimEnd(s[..|s| - 1]) else s
  }

  /** `s.strip()`: whitespace removed at both ends. */
  function Strip(s: string): string {
    TrimEnd(TrimStart(s))
  }

  /** Stripping keeps every non-space character of the string. */
  lemma StripKeeps(s: string, c: char)
    requires !IsSpace(c) && Contains(s, [c])
    ensures Contains(Strip(s), [c])
  {
    ContainsChar(s, c);
    var i :| 0 <= i < |s| && s[i] == c;
    var t := TrimStart(s);
    var k := i - (|s| - |t|);
    assert 0 <= k < |t| && t[k] == c;
    var u := TrimEnd(t);
    assert k < |u| && u[k] == c;
    ContainsChar(u, c);
  }

  /** A string with non-space characters at both ends is its own strip. */
  lemma StripNoop(s: string)
    requires |s| > 0 && !IsSpace(s[0]) && !IsSpace(s[|s| - 1])
    ensures Strip(s) == s
  {
  }

  predicate IsUpper(c: char) {
    'A' <= c <= 'Z'
  }

  /** No ASCII capital letter in `s`. */
  predicate LowerCase(s: string) {
    forall i :: 0 <= i < |s| ==> !IsUpper(s[i])
  }

  function LowerChar(c: char): char {
    if IsUpper(c) then (c as int + 32) as char else c
  }

  /** MicroPython's `str.lower()` (ASCII case mapping). */
  function Lower(s: string): (r: string)
    ensures |r| == |s|
    ensures LowerCase(r)
    ensures forall i :: 0 <= i < |s| && IsUpper(s[i]) ==> r[i] as int == s[i] as int + 32
    ensures forall i :: 0 <= i < |s| && !IsUpper(s[i]) ==> r[i] == s[i]
  {
    seq(|s|, i requires 0 <= i < |s| => LowerChar(s[i]))
  }

  /** `c` and `d` are the same character up to ASCII case. */
  predicate SameLetter(c: char, d: char) {
    c == d
    || (IsUpper(c) && d as int == c as int + 32)
    || (IsUpper(d) && c as int == d as int + 32)
  }

  /** Strings that differ only in ASCII case lower to the same string. */
  lemma LowerIgnoresCase(a: string, b: string)
    requires |a| == |b| && forall i :: 0 <= i < |a| ==> SameLetter(a[i], b[i])
    ensures Lower(a) == Lower(b)
  {
    var la, lb := Lower(a), Lower(b);
    forall i | 0 <= i < |a|
      ensures la[i] == lb[i]
    {
      assert la[i] == LowerChar(a[i]) && lb[i] == LowerChar(b[i]);
    }
  }

  /** Lowering twice is lowering once. */
  lemma LowerIdempotent(s: string)
    ensures Lower(Lower(s)) == Lower(s)
  {
    var l := Lower(s);
    forall i | 0 <= i < |s|
      ensures Lower(l)[i] == l[i]
    {
      assert !IsUpper(l[i]);
    }
  }
}

=== FILE: weather.dfy ===
/**
 * Forecast-based suppression and the bounded weather log: the maximum
 * precipitation probability over the next forecast periods, the threshold
 * that disables misting, and the 21-entry log trimmed from the front.
 */
module Weather {
  import opened Wrappers

  /** Seconds that must pass between two forecast fetches (6 hours). */
  const CheckInterval := 21600
  /** A precipitation probability at or above this suppresses misting. */
  const RainThreshold := 60
  /** How many leading forecast periods are inspected and logged. */
  const ForecastWindow := 7
  /** The weather log keeps at most this many entries. */
  const LogCapacity := 21

  /**
   * A forecast period, reduced to `probabilityOfPrecipitation.value`
   * (None when the key is missing or the value is null).
   */
  type Period = Option<int>

  /** One log record: when the forecast was fetched and the periods inspected. */
  datatype WeatherEntry = WeatherEntry(timestamp: int, periods: seq<Period>)

  /** `if v is None: v = 0`. */
  function Probability(p: Period): int {
    p.GetOr(0)
  }

  /** `periods[:7]`. */
  function Window(forecast: seq<Period>): (r: seq<Period>)
    ensures |r| <= ForecastWindow && |r| <= |forecast| && r == forecast[..|r|]
    ensures |r| == if |forecast| < ForecastWindow then |forecast| else ForecastWindow
  {
    if |forecast| <= ForecastWindow then forecast else forecast[..ForecastWindow]
  }

  /**
   * The running maximum that starts at 0: never negative, at least every
   * period's probability, and either 0 or one of those probabilities.
   */
  function MaxProbability(periods: seq<Period>): (r: int)
    ensures r >= 0
    ensures forall i :: 0 <= i < |periods| ==> Probability(periods[i]) <= r
    ensures r == 0 || exists i :: 0 <= i < |periods| && r == Probability(periods[i])
    decreases |periods|
  {
    if periods == [] then 0
    else
      var init := periods[..|periods| - 1];
      var m := MaxProbability(init);
      var v := Probability(periods[|periods| - 1]);
      assert forall i :: 0 <= i < |init| ==> init[i] == periods[i];
      if v > m then v else m
  }

  /** The running maximum over one more period. */
  lemma MaxProbabilityStep(periods: seq<Period>, i: nat)
    requires i < |periods|
    ensures MaxProbability(periods[..i + 1]) ==
      if Probability(periods[i]) > MaxProbability(periods[..i]) then Probability(periods[i])
      else MaxProbability(periods[..i])
  {
    assert periods[..i + 1][..i] == periods[..i];
  }

  /** The forecast disables misting: the maximum over the window reaches the threshold. */
  predicate Suppresses(forecast: seq<Period>) {
    MaxProbability(Window(forecast)) >= RainThreshold
  }

  /** Suppression happens exactly when one of the first 7 periods reaches 60. */
  lemma SuppressesMeaning(forecast: seq<Period>)
    ensures Suppresses(forecast) <==>
      exists i :: 0 <= i < |forecast| && i < ForecastWindow && Probability(forecast[i]) >= RainThreshold
  {
    var w := Window(forecast);
    if i :| 0 <= i < |forecast| && i < ForecastWindow && Probability(forecast[i]) >= RainThreshold {
      assert w[i] == forecast[i];
    }
    if Suppresses(forecast) {
      var i :| 0 <= i < |w| && MaxProbability(w) == Probability(w[i]);
      assert forecast[i] == w[i];
    }
  }

  /** A period beyond the window never causes suppression. */
  lemma LaterPeriodsIgnored(forecast: seq<Period>, later: seq<Period>)
    requires |forecast| >= ForecastWindow
    ensures Suppresses(forecast + later) == Suppresses(forecast)
  {
    assert Window(forecast + later) == Window(forecast);
  }

  /**
   * `history.append(entry)` then `history[-21:]` when longer than 21: at most
   * 21 entries, the new entry last, a suffix of the old log plus the entry,
   * and as long as the capacity allows.
   */
  function Appended(history: seq<WeatherEntry>, entry: WeatherEntry): (r: seq<WeatherEntry>)
    ensures |r| == if |history| < LogCapacity then |history| + 1 else LogCapacity
    ensures r[|r| - 1] == entry
    ensures r == (history + [entry])[|history| + 1 - |r|..]
  {
    var h := history + [entry];
    if |h| > LogCapacity then h[|h| - LogCapacity..] else h
  }

  /** A full log evicts exactly its oldest entry. */
  lemma EvictsOldest(history: seq<WeatherEntry>, entry: WeatherEntry)
    requires |history| == LogCapacity
    ensures Appended(history, entry) == history[1..] + [entry]
  {
    var r := Appended(history, entry);
    assert r == (history + [entry])[1..];
  }

  /** Below capacity nothing is evicted. */
  lemma KeepsAllBelowCapacity(history: seq<WeatherEntry>, entry: WeatherEntry)
    requires |history| < LogCapacity
    ensures Appended(history, entry) == history + [entry]
  {
    var r := Appended(history, entry);
    assert r == (history + [entry])[0..];
  }
}

=== FILE: wrappers.dfy ===
/** Optional values: a JSON key that may be absent, a parse that may fail. */
module Wrappers {

  datatype Option<+T> = None | Some(value: T) {

    /** The carried value, or `default` when there is none (Python's `dict.get(k, default)`). */
    function GetOr(default: T): T {
      match this
      case Some(v) => v
      case None => default
    }
  }
}
